=== FILE: README.md ===
# Canton staking and transfer facade: a Dafny model

The system is an Express server in front of a Canton ledger's JSON API (v2).
It has three service modules:

- **Staking** caches an OAuth bearer token. It builds every ledger request from one helper. It creates staking pools, adds stakers, deposits and withdraws. It lists pools, stakes and CIP-56 holdings from active-contract queries.
- **Transfer** finds the sender's holdings and picks the first one large enough. It exercises `Transfer` on that holding and reports the contracts the transaction created. It also lists a party's holding history.
- **Balance** lists a party's holdings, keeps those owned by an optional owner, counts them and sums their amounts.

Two controllers validate request bodies. They call the services and map their results and errors to HTTP responses.

The model takes every HTTP exchange's outcome as an input: the ledger's replies, the token endpoint's reply and the current time. What remains is the deterministic rule each function applies. These rules are written as pure Dafny functions over immutable datatypes, plus one method with a loop for the balance walk. Each operation returns what it sent (the command submission or the active-contract query) together with its outcome. Each handler returns the arguments it called its service with (`None` when it did not call it) together with its response.

Files:

- `wrappers.dfy`: `Option` and `Result`.
- `js.dfy`: the JavaScript values the code reads and the language rules it relies on. These are truthiness, `||`, optional chaining, spread, `===`, numeric coercion, `parseFloat`, `toString` and `includes`. Numbers are exact reals plus NaN.
- `seqs.dfy`: `find`, `filter`, and a `map` whose callback may throw.
- `ledger.dfy`:
  - ledger entries, events, commands and errors
  - the two rules shared by the services: the ledger-end offset fallback and "the first created event that matches"
- `staking_service.dfy`, `transfer_service.dfy`, `balance_service.dfy`: the three services.
- `http.dfy`, `transfer_controller.dfy`, `staking_controller.dfy`: the handlers.

`deposit` submits its exercise with no prior pool lookup, staker-membership, issuer or balance check (StakingModule/services/stakingService.js:162-186), so the model has no such checks.

## Model

| member | source | states |
|---|---|---|
| Js.ToText | StakingModule/services/stakingService.js:179 | `toString` throws exactly on `undefined`/`null`, always yields a string, and leaves a string unchanged |
| Js.Includes | StakingModule/services/stakingService.js:188-190 | `includes` holds exactly when the substring occurs at some index |
| Js.IncludesSuffix | StakingModule/services/stakingService.js:188-190 | a template id contains every text it ends with |
| Seqs.Find | TransferModule/services/transferService.js:101 | `find` returns the first index whose element matches, and none exactly when no element does |
| Seqs.Filter | StakingModule/services/stakingService.js:259-260 | `filter` keeps only matching elements, keeps every matching element, and is never longer than its input |
| Seqs.FilterAppend | StakingModule/services/stakingService.js:259-260 | filtering distributes over concatenation, so the kept elements stay in input order |
| Seqs.FilterCongruent | BalanceModule/services/balanceService.js:93 | predicates that agree on every element select the same elements |
| Js.ParseFloatOrZero | BalanceModule/services/balanceService.js:98 | a falsy amount counts as zero, a truthy one is read by `parseFloat` |
| Js.SumOfAppend | StakingModule/services/stakingService.js:362 | the left-to-right sum (`reduce` in `queryHoldings`, `+=` in `checkBalance`) splits over any division of the list, so each element is counted once and one NaN term makes the sum NaN |
| Seqs.MapAll | TransferModule/services/transferService.js:67-80 | a throwing `map` succeeds iff every callback does, keeps the length and order, and otherwise fails with the first failing element's error |
| Ledger.CreatedEvents | TransferModule/services/transferService.js:136 | the created events of a reply, one per `CreatedEvent` entry, in order |
| Ledger.LedgerMessageOr | TransferModule/services/transferService.js:169 | the ledger's `message` when it is truthy, else the error's own message |
| Ledger.LatestOffset | TransferModule/services/transferService.js:10-25 | the offset is always truthy: the ledger's offset when the call succeeds with a truthy one, "0" on a missing offset or a failed call |
| Ledger.FirstCreated | StakingModule/services/stakingService.js:118 | the first created event satisfying the matcher, with every earlier event not matching; none iff no event matches |
| Ledger.FirstCreatedId | StakingModule/services/stakingService.js:221-229 | the reported id is absent when nothing matches, else the first match's id |
| StakingService.GetToken | StakingModule/services/stakingService.js:32-48 | a live cached token is returned with the cache unchanged; otherwise the endpoint is asked, and on success both fields are replaced with expiry = t + (expires_in − 60)·1000, where t is the second clock reading taken after the exchange returns, or NaN when `expires_in` is absent; a failed exchange leaves the cache unchanged; a returned token is the cached one |
| StakingService.FirstCallFetches | StakingModule/services/stakingService.js:26-27 | the initial state (null, 0) forces an exchange on the first call |
| StakingService.LiveTokenIsReused | StakingModule/services/stakingService.js:33-35 | any run of calls before expiry makes no exchange, leaves the cache unchanged and returns the same token every time |
| StakingService.NoLifetimeRefreshesEveryCall | StakingModule/services/stakingService.js:33-45 | after a token reply without `expires_in` the expiry is NaN; as long as every later reply also lacks `expires_in`, every call, whatever its time, asks the token endpoint again |
| StakingService.RefreshServesLaterCalls | StakingModule/services/stakingService.js:44-45 | after one refresh, every call before the new expiry (counted from the reply's own clock reading) is served from the cache, so the run makes exactly one exchange |
| StakingService.LedgerRequest | StakingModule/services/stakingService.js:53-68 | url is `LEDGER_URL/v2/endpoint`, the header is `Bearer token`, and a body is attached iff data is given and the method is POST; a token failure sends nothing |
| StakingService.LedgerEndOffset | StakingModule/services/stakingService.js:87-90 | the ledger-end reply's `offset`, with no fallback; a call failure propagates |
| StakingService.CreatePoolSubmission | StakingModule/services/stakingService.js:94-116 | one CreateCommand on the pool template with operator = validator, issuer = the given issuer or the DSO party, and no stakers; acted as the validator |
| StakingService.CreatePool | StakingModule/services/stakingService.js:93-126 | always submits; reports the first created event's id or none, and success whenever the ledger answered |
| StakingService.AddStakerSubmission | StakingModule/services/stakingService.js:130-150 | one AddStaker exercise on the given pool whose only argument is the new staker |
| StakingService.AddStaker | StakingModule/services/stakingService.js:129-159 | reports the first created event's id (the successor pool) or none |
| StakingService.DepositSubmission | StakingModule/services/stakingService.js:163-186 | one Deposit exercise on the given pool, acting as the staker and reading as the validator, with the amount in string form; nothing is built when the amount is `undefined`/`null` |
| StakingService.Deposit | StakingModule/services/stakingService.js:162-197 | submits with no preceding check; reports the first created event whose template id contains ":Stake", or none |
| StakingService.WithdrawSubmission | StakingModule/services/stakingService.js:201-219 | one Withdraw exercise on the given stake with an empty argument, acting as the staker |
| StakingService.Withdraw | StakingModule/services/stakingService.js:200-230 | reports the first created event whose template id contains "CIP56Holding", or none |
| StakingService.StakeTemplateRecognised | StakingModule/services/stakingService.js:188-190 | a created stake of the configured template is always recognised by the ":Stake" test |
| StakingService.HoldingTemplateRecognised | StakingModule/services/stakingService.js:221-223 | a created holding of the configured template is always recognised by the "CIP56Holding" test |
| StakingService.ContractRecord | StakingModule/services/stakingService.js:261-264 | the record holds `contractId` plus the create arguments' fields; the arguments win on a clash; it throws when the entry has no created event |
| StakingService.ActiveRecords | StakingModule/services/stakingService.js:259-264 | one record per entry that has an active contract, in order, never more records than entries |
| StakingService.QueryActive | StakingModule/services/stakingService.js:234-257 | the query asks for one party and one template at the ledger-end offset; an offset failure sends no query; the outcome is the projection of the reply |
| StakingService.QueryPools | StakingModule/services/stakingService.js:233-270 | queries the validator's pool contracts at the ledger-end offset, sending no query when that offset cannot be read, and projects them; a failed query propagates |
| StakingService.QueryStakes | StakingModule/services/stakingService.js:273-310 | queries the staker's stake contracts at the ledger-end offset, sending no query when that offset cannot be read, and projects them; a failed query propagates |
| StakingService.HoldingViewOf | StakingModule/services/stakingService.js:346-355 | a view of the holding's id, issuer, owner and amount; `isCantonCoin` iff the issuer is the DSO party |
| StakingService.HoldingsOf | StakingModule/services/stakingService.js:344-363 | one view per active entry, in order; `count` equals the number of views; the total is the left-to-right sum of `parseFloat(amount || 0)` over them |
| StakingService.QueryHoldings | StakingModule/services/stakingService.js:313-364 | queries the owner's holdings of the configured template and reports them for that owner |
| TransferService.HoldingOf | TransferModule/services/transferService.js:67-79 | each entry maps to its id, parsed amount, owner, issuer and meta; an entry without a created event or arguments throws |
| TransferService.HoldingsFor | TransferModule/services/transferService.js:30-87 | an empty or absent reply raises "No holdings found for sender"; all entries are mapped before filtering; the result is exactly the holdings owned by the owner, and none raises the owner-mismatch error |
| TransferService.OwnedPreservesOrder | TransferModule/services/transferService.js:80 | the owner filter distributes over the reply, so holdings keep reply order |
| TransferService.SelectHolding | TransferModule/services/transferService.js:101 | the first holding with amount ≥ the requirement, every earlier one insufficient; none iff no holding suffices |
| TransferService.TransferSubmission | TransferModule/services/transferService.js:108-125 | one Transfer exercise on the chosen holding, with to = receiver, value = the base-unit amount, both compliance ids null, acted as the sender |
| TransferService.NewContractOf | TransferModule/services/transferService.js:137-146 | owner, amount ÷ 10^18, symbol defaulting to "PLDM", and contract id of one created event |
| TransferService.NewContracts | TransferModule/services/transferService.js:136-147 | one new contract per created event of the reply, in order |
| TransferService.SentAmountReadsBack | TransferModule/services/transferService.js:93-143 | the base-unit `value` a transfer sends, read back as a created contract's amount ÷ 10^18, is the requested amount, NaN included |
| TransferService.Wrap | TransferModule/services/transferService.js:166-172 | the thrown error is the ledger's message or the error's own, the reply's status or none, and the reply's body or undefined |
| TransferService.SubmitTransfer | TransferModule/services/transferService.js:107-173 | exercises Transfer on the chosen holding for the receiver, acting as the sender; a failed submission or projection is wrapped; a receipt names the reply's updateId and completion offset, its status or else "Completed", sender, receiver and amount as given, the holding's symbol and balance ÷ 10^18, and exactly the projected created contracts |
| TransferService.DirectTransfer | TransferModule/services/transferService.js:92-174 | queries the sender's holdings at the latest offset; submits iff some holding covers amount·10^18, using the first such one; raises "Insufficient balance" otherwise; wraps every failure after the token |
| TransferService.HistoryEntryOf | TransferModule/services/transferService.js:217-225 | a created event as a "received" entry with owner, amount ÷ 10^18, symbol and timestamp |
| TransferService.TransferHistory | TransferModule/services/transferService.js:179-241 | the events range runs from "0" to the latest offset; there is one "received" entry per created event, in order; a failure reports the ledger's message or the error's |
| BalanceService.InfoOf | BalanceModule/services/balanceService.js:98-109 | a kept contract's owner, amount, parsed amount (a missing one counts 0), id, creation time, issuer and meta |
| BalanceService.TalliesAreKept | BalanceModule/services/balanceService.js:84-113 | the list built entry by entry equals the filtered entries, each turned into its contract info |
| BalanceService.NoFilterKeepsAll | BalanceModule/services/balanceService.js:93-96 | without an owner filter every counted entry is kept |
| BalanceService.Tally | BalanceModule/services/balanceService.js:84-113 | one pass counts exactly the entries with arguments, keeps exactly those passing the filter in order, and sums the kept amounts; filteredOut + kept = checked |
| BalanceService.BalanceErrorOf | BalanceModule/services/balanceService.js:124-131 | status is the reply's status or 500, code is the ledger's code or "UNKNOWN_ERROR", message is the ledger's message or the error's |
| BalanceService.CheckBalance | BalanceModule/services/balanceService.js:32-132 | the party defaults to the validator; an empty reply gives "0"/0 and zero counters; otherwise the counters, kept contracts, owner filter and sum are as Tally states, and totalBalance is the total's text |
| Http.ReplyOrMessage | StakingModule/controllers/stakingController.js:31 | the failed reply's body when it is truthy, else the error's message |
| TransferController.TransferErrorText | TransferModule/controllers/transferController.js:41 | the wrapped error's text when it is truthy; else the message, which the wrapped object lacks; a token error gives its own message |
| TransferController.TransferErrorStatus | TransferModule/controllers/transferController.js:39 | the wrapped status when it is truthy, else 500 |
| TransferController.TransferErrorDetails | TransferModule/controllers/transferController.js:42 | the wrapped details when they are truthy, else null |
| TransferController.TransferTokens | TransferModule/controllers/transferController.js:7-45 | the service is called iff all three fields are truthy, the amount is not ≤ 0 and both parties are strings; missing fields answer 400 before the sign check; success answers 200 with the result unchanged; failure maps status, error and details |
| TransferController.ZeroAmountIsMissing | TransferModule/controllers/transferController.js:12-24 | an amount of 0 reports the missing-fields error, not the sign error |
| TransferController.BlankAmountIsNotPositive | TransferModule/controllers/transferController.js:12-24 | blank text such as " " is truthy but converts to 0, so the sign check answers 400 and the service is not called |
| TransferController.ZeroTextIsNotPositive | TransferModule/controllers/transferController.js:12-24 | the text "0" is truthy, so it passes the missing-fields check and is rejected by the sign check |
| TransferController.NonNumericAmountIsNeverSubmitted | TransferModule/controllers/transferController.js:19-32 | a non-numeric amount passes the `<= 0` check, but no transfer is ever submitted for it |
| TransferController.HistoryErrorText | TransferModule/controllers/transferController.js:72 | the service's error text when truthy, else the message |
| TransferController.GetHistory | TransferModule/controllers/transferController.js:50-75 | a falsy party id answers 400 without calling the service; every service failure answers 500 |
| StakingController.Guarded | StakingModule/controllers/stakingController.js:15-33 | the shared POST shape: the service is called iff the body is readable and complete; an incomplete body answers 400 with error and hint; a failure answers 500 |
| StakingController.FailuresAre500 | StakingModule/controllers/stakingController.js:29-32 | a POST handler answers only 200, 400 or 500, and 400 exactly on an incomplete body |
| StakingController.CreatePool | StakingModule/controllers/stakingController.js:15-33 | a falsy issuer answers 400 without calling the service |
| StakingController.HandlerPoolKeepsIssuer | StakingModule/controllers/stakingController.js:19-27 | through the handler, a pool is always created with the issuer given, never the DSO fallback |
| StakingController.AddStaker | StakingModule/controllers/stakingController.js:36-53 | both the pool id and the new staker are required |
| StakingController.DepositErrorText | StakingModule/controllers/stakingController.js:100-101 | the error's message, else the ledger's `cause`, else "Deposit failed"; always truthy |
| StakingController.Deposit | StakingModule/controllers/stakingController.js:78-104 | all four fields are required; a failure answers 500 with the friendly message |
| StakingController.AcceptedDepositIsSubmitted | StakingModule/controllers/stakingController.js:82-94 | every deposit the handler accepts reaches the ledger, because a truthy amount has a `toString` |
| StakingController.Withdraw | StakingModule/controllers/stakingController.js:107-124 | both the stake id and the staker are required |
| StakingController.Answer | StakingModule/controllers/stakingController.js:127-135 | a GET handler answers 200 with the result, or 500 with the mapped error |
| StakingController.GetPools | StakingModule/controllers/stakingController.js:127-135 | the service is always called; failures answer 500 |
| StakingController.PartyOrValidator | StakingModule/controllers/stakingController.js:140 | the query parameter when it is truthy, else the validator party |
| StakingController.ByParty | StakingModule/controllers/stakingController.js:138-162 | `getStakes` and `getHoldings` always call the service, for the party in the query parameter when it is truthy, else the validator; failures answer 500 |
| StakingController.GetStakes | StakingModule/controllers/stakingController.js:138-147 | the stakes of the truthy `?staker=`, else of the validator; the service is always called; 200 with the result or 500 |
| StakingController.GetHoldings | StakingModule/controllers/stakingController.js:150-162 | the holdings of the truthy `?owner=`, else of the validator; the report is answered unchanged with 200; a failure answers 500 with the reply body or the message |
| StakingController.DefaultStakesAreValidators | StakingModule/controllers/stakingController.js:140-141 | without a truthy `?staker=`, the active-contract query is made for the validator party |
| StakingController.DefaultHoldingsAreValidators | StakingModule/controllers/stakingController.js:152-153 | without a truthy `?owner=`, the holdings report is the validator's |

## Left out

- Network, transport and environment. The axios calls, the token endpoint, `dotenv` loading and `Date.now()` are replaced by inputs. `getToken` reads the clock twice, before and after the exchange, and the model takes both readings as inputs. Environment variables are fields of a `Config` and are always defined.
- Command ids. Only their fixed prefix is kept (`create-pool-`, `deposit-`, `transfer-`, …); the millisecond suffix is not.
- Logging. `console.log`/`console.error` are not modelled. The one place it matters is `substring` on a non-string sender, receiver or party id, which throws; that throw is modelled.
- StakingService.CreatePool, StakingService.AddStaker, StakingService.Deposit, StakingService.Withdraw, StakingService.QueryPools, StakingService.QueryStakes, StakingService.QueryHoldings and StakingService.LedgerEndOffset neither read nor update the token cache. In the code each goes through `ledgerRequest`, which calls `getToken` (StakingModule/services/stakingService.js:54); the queries do so twice, for the ledger end and for the active contracts. Here GetToken and LedgerRequest model that step on their own, and each operation's reply input stands for the token exchange and the ledger call together. So a failed token exchange shows up as a failed reply, the submission is still reported in `sent`, and the request configuration (the bearer header, the body sent only with POST) is not attached to the operations.
- Concurrency. Several requests racing on the module-level token cache are not modelled; a single sequential caller is.
- IEEE-754 arithmetic. Amounts are exact reals with NaN. `parseFloat`, `* 1e18` and `/ 1e18` are exact, so rounding, overflow to Infinity and exponent notation are not modelled.
- Js.ToText: an array of two or more elements renders as the empty string instead of its comma-joined text. Only `deposit`'s `amount.toString()` reads it, and the model shows only that the amount becomes some string.
- Js.ToNumber and Js.ParseFloat: strings are exact numerals, blank text (which Js.ToNumber reads as 0), or non-numeric. Whitespace-padded numerals such as " 5", a numeric prefix such as "12abc", "Infinity" and hexadecimal text are not modelled.
- Js.StrictEq: two objects or arrays are never strictly equal here. Object identity is not modelled, and the code only compares primitives.
- Js.Value: numeric text must arrive as `Numeral`; a `Str` holding a numeral such as "-5" is not excluded by the type and converts to NaN. A numeric string (`Numeral`) keeps only its value, so "1", "1.0" and "100.50" are one value. Js.StrictEq therefore holds for `"1" === "1.0"`, and the `amount.toString()` that `deposit` sends (StakingModule/services/stakingService.js:179) is the normalised numeral, not the text the caller gave.
- The `success` field is not part of the outcome types. This covers the `success: true` that `queryPools`, `queryStakes`, `queryHoldings` (StakingModule/services/stakingService.js:358) and the staking commands add, the `success: true` of the transfer receipt and the history (TransferModule/services/transferService.js:150, 230), and the `success: false` of the errors `directTransfer` and `getTransferHistory` throw (TransferModule/services/transferService.js:168, 237).
- An AxiosError's own `status` property is not modelled. A token failure reaching the transfer controller therefore answers 500.
- A `null` body in a submit-and-wait reply (`response.data.events` throwing) is not modelled. The reply is always an object.
- A non-string `access_token` in the token reply is not modelled. The cached token is a string.
- `getConfig` and `getLedgerEnd` (StakingModule/controllers/stakingController.js:4-12, 164-173) return configuration and the ledger offset unchanged. They are not modelled.
- `getPool` (StakingModule/controllers/stakingController.js:55-75) calls `getPoolById`, which the service never defines, so it is not modelled.
- `auth.js` (the uncached token helper of the transfer and balance services), the route tables, `server.js` and `BalanceModule/controllers/balanceController.js` are not part of this model. The helper's result is an input of those services.

=== FILE: balance_service.dfy ===
/**
 * The balance service: list a party's CIP-56 holdings, optionally keep only
 * those owned by one party, and total them.
 *
 * The reply is walked once, as `forEach` does, by `Tally`; its result is
 * stated against independent definitions: the `Filter` selections
 * `Counted` and `Kept`, and the left-to-right sum `SumOf`.
 */
module BalanceService {
  import opened Wrappers
  import opened Js
  import opened Ledger
  import Seqs

  /** `VALIDATOR_PARTY` and `PACKAGE_ID` from the environment. */
  datatype Config = Config(validatorParty: string, packageId: string)

  /** One kept holding as the report lists it. */
  datatype ContractInfo = ContractInfo(
    owner: Value,
    amount: Value,
    aBTC: Number,
    contractId: Value,
    createdAt: Value,
    issuer: Value,
    meta: Value)

  /** The entry has truthy create arguments, so it is counted as checked. */
  predicate HasArgs(e: AcsEntry) {
    Truthy(ArgsOf(e))
  }

  /** `!(filterByOwner && args.owner !== filterByOwner)` */
  predicate PassesFilter(e: AcsEntry, filterByOwner: Value) {
    !Truthy(filterByOwner) || StrictEq(Get(ArgsOf(e), "owner"), filterByOwner)
  }

  /** The entry is counted and survives the owner filter. */
  predicate Tallied(e: AcsEntry, filterByOwner: Value) {
    HasArgs(e) && PassesFilter(e, filterByOwner)
  }

  /** The entries counted in `totalChecked`. */
  function Counted(entries: seq<AcsEntry>): seq<AcsEntry> {
    Seqs.Filter(entries, HasArgs)
  }

  /** The entries listed in `contracts`. */
  function Kept(entries: seq<AcsEntry>, filterByOwner: Value): seq<AcsEntry> {
    Seqs.Filter(entries, e => Tallied(e, filterByOwner))
  }

  /** The `contractInfo` of a counted entry. */
  function InfoOf(e: AcsEntry): (r: ContractInfo)
    requires HasArgs(e)
    ensures Carries(e) && r.contractId == IdValue(EventOf(e).contractId) && r.createdAt == EventOf(e).createdAt
    ensures r.owner == Get(ArgsOf(e), "owner") && r.amount == Get(ArgsOf(e), "amount")
    ensures r.aBTC == ParseFloatOrZero(Get(ArgsOf(e), "amount"))
    ensures r.issuer == Get(ArgsOf(e), "issuer") && r.meta == Get(ArgsOf(e), "meta")
  {
    var ev := EventOf(e);
    var args := ev.createArgument;
    ContractInfo(Get(args, "owner"), Get(args, "amount"), ParseFloatOrZero(Get(args, "amount")), IdValue(ev.contractId),
                 ev.createdAt, Get(args, "issuer"), Get(args, "meta"))
  }

  /** The term `totalaBTC += contractInfo.aBTC` adds for each kept contract. */
  function AbtcOf(c: ContractInfo): Number {
    c.aBTC
  }

  /** The contract list the walk builds, defined from the end like `Filter`. */
  function Tallies(entries: seq<AcsEntry>, filterByOwner: Value): seq<ContractInfo> {
    if |entries| == 0 then []
    else
      var last := entries[|entries| - 1];
      Tallies(entries[..|entries| - 1], filterByOwner) + (if Tallied(last, filterByOwner) then [InfoOf(last)] else [])
  }

  /** The walk's list is exactly the kept entries, each turned into its `contractInfo`. */
  lemma {:induction false} TalliesAreKept(entries: seq<AcsEntry>, filterByOwner: Value)
    ensures |Tallies(entries, filterByOwner)| == |Kept(entries, filterByOwner)|
    ensures forall k :: 0 <= k < |Kept(entries, filterByOwner)| ==>
      Tallied(Kept(entries, filterByOwner)[k], filterByOwner)
      && Tallies(entries, filterByOwner)[k] == InfoOf(Kept(entries, filterByOwner)[k])
    decreases |entries|
  {
    if |entries| > 0 {
      var init := entries[..|entries| - 1];
      TalliesAreKept(init, filterByOwner);
    }
  }

  /** Without a (truthy) owner filter every counted entry is kept. */
  lemma NoFilterKeepsAll(entries: seq<AcsEntry>, filterByOwner: Value)
    requires !Truthy(filterByOwner)
    ensures Kept(entries, filterByOwner) == Counted(entries)
  {
    Seqs.FilterCongruent(entries, e => Tallied(e, filterByOwner), HasArgs);
  }

  /** One pass over the reply, as the `forEach` callback does it. */
  method Tally(entries: seq<AcsEntry>, filterByOwner: Value)
    returns (contracts: seq<ContractInfo>, total: Number, checked: nat, filteredOut: nat)
    ensures |contracts| == |Kept(entries, filterByOwner)|
    ensures forall k :: 0 <= k < |contracts| ==>
      Tallied(Kept(entries, filterByOwner)[k], filterByOwner)
      && contracts[k] == InfoOf(Kept(entries, filterByOwner)[k])
    ensures total == SumOf(contracts, AbtcOf)
    ensures checked == |Counted(entries)|
    ensures filteredOut + |contracts| == checked
  {
    contracts, total, checked, filteredOut := [], Real(0.0), 0, 0;
    var i := 0;
    while i < |entries|
      invariant 0 <= i <= |entries|
      invariant contracts == Tallies(entries[..i], filterByOwner)
      invariant total == SumOf(contracts, AbtcOf)
      invariant checked == |Counted(entries[..i])|
      invariant filteredOut + |contracts| == checked
    {
      var e := entries[i];
      assert entries[..i + 1][..i] == entries[..i];
      if HasArgs(e) {
        checked := checked + 1;
        if !PassesFilter(e, filterByOwner) {
          filteredOut := filteredOut + 1;
        } else {
          var info := InfoOf(e);
          assert (contracts + [info])[..|contracts|] == contracts;
          total := Add(total, info.aBTC);
          contracts := contracts + [info];
        }
      }
      i := i + 1;
    }
    assert entries[..i] == entries;
    TalliesAreKept(entries, filterByOwner);
  }

  datatype BalanceReport = BalanceReport(
    totalBalance: Value,
    totalaBTC: Number,
    contracts: seq<ContractInfo>,
    totalChecked: nat,
    filteredOut: nat,
    offset: Value)

  /** The thrown `{status, code, message, details}`. */
  datatype BalanceError = BalanceError(status: int, code: Value, message: Said, details: Value)

  /** What `checkBalance` throws: the token helper's own error, or the mapped one. */
  datatype BalanceFailure = BalanceTokenFailed(fault: Fault) | BalanceFailed(err: BalanceError)

  /** The catch block of `checkBalance`. */
  function BalanceErrorOf(f: Fault): (r: BalanceError)
    ensures r.status != 0
    ensures f.response.Some? && f.response.value.status != 0 ==> r.status == f.response.value.status
    ensures f.response.None? || f.response.value.status == 0 ==> r.status == 500
    ensures r.code == Or(Get(DetailsOf(f), "code"), Str("UNKNOWN_ERROR"))
    ensures r.message == LedgerMessageOr(f) && r.details == DetailsOf(f)
  {
    var status := if f.response.Some? && f.response.value.status != 0 then f.response.value.status else 500;
    BalanceError(status, Or(Get(DetailsOf(f), "code"), Str("UNKNOWN_ERROR")), LedgerMessageOr(f), DetailsOf(f))
  }

  /**
   * `checkBalance(partyId, filterByOwner)`. `acs` is the body of the
   * active-contracts reply, `None` when it is falsy; `offsetReply` the
   * ledger-end reply.
   */
  method CheckBalance(cfg: Config, partyId: Value, filterByOwner: Value, token: Result<string, Fault>,
                      offsetReply: Result<Value, Fault>, acs: Result<Option<seq<AcsEntry>>, Fault>)
    returns (query: Option<AcsQuery>, outcome: Result<BalanceReport, BalanceFailure>)
    ensures token.Failure? ==> query.None? && outcome == Failure(BalanceTokenFailed(token.error))
    ensures token.Success? ==>
      query == Some(AcsQuery(Or(partyId, Str(cfg.validatorParty)), HoldingTemplateIn(cfg.packageId), LatestOffset(offsetReply)))
    ensures token.Success? && acs.Failure? ==> outcome == Failure(BalanceFailed(BalanceErrorOf(acs.error)))
    ensures token.Success? && acs.Success? && (acs.value.None? || |acs.value.value| == 0) ==>
      outcome == Success(BalanceReport(Numeral(0.0), Real(0.0), [], 0, 0, Undefined))
    ensures outcome.Failure? ==> token.Failure? || acs.Failure?
    ensures token.Success? && acs.Success? && acs.value.Some? && |acs.value.value| > 0 ==>
      var entries := acs.value.value;
      var kept := Kept(entries, filterByOwner);
      && outcome.Success?
      && var report := outcome.value;
         && report.totalChecked == |Counted(entries)|
         && report.filteredOut + |report.contracts| == report.totalChecked
         && (!Truthy(filterByOwner) ==> report.filteredOut == 0)
         && |report.contracts| == |kept|
         && (forall k :: 0 <= k < |kept| ==> report.contracts[k] == InfoOf(kept[k]))
         && (Truthy(filterByOwner) ==> forall k :: 0 <= k < |kept| ==> StrictEq(report.contracts[k].owner, filterByOwner))
         && report.totalaBTC == SumOf(report.contracts, AbtcOf)
         && report.totalBalance == NumberText(report.totalaBTC)
         && report.offset == LatestOffset(offsetReply)
  {
    if token.Failure? {
      return None, Failure(BalanceTokenFailed(token.error));
    }
    var offset := LatestOffset(offsetReply);
    query := Some(AcsQuery(Or(partyId, Str(cfg.validatorParty)), HoldingTemplateIn(cfg.packageId), offset));
    if acs.Failure? {
      return query, Failure(BalanceFailed(BalanceErrorOf(acs.error)));
    }
    if acs.value.None? || |acs.value.value| == 0 {
      return query, Success(BalanceReport(Numeral(0.0), Real(0.0), [], 0, 0, Undefined));
    }
    var entries := acs.value.value;
    var contracts, total, checked, filteredOut := Tally(entries, filterByOwner);
    if !Truthy(filterByOwner) {
      NoFilterKeepsAll(entries, filterByOwner);
    }
    outcome := Success(BalanceReport(NumberText(total), total, contracts, checked, filteredOut, offset));
  }
}

=== FILE: http.dfy ===
/**
 * What an Express handler does with a request: whether it called its
 * service, and the status and JSON body it answered with.
 */
module Http {
  import opened Wrappers
  import opened Js
  import opened Ledger

  /** A response body: the service's result, a validation error, or a failure. */
  datatype Body<T> =
    | Ok(result: T)                                   // the service result, unchanged
    | Invalid(reason: string, hint: Option<string>)    // `{error, hint}` of a 400
    | Failed(error: Said, details: Option<Value>)      // `{error}` or `{error, details}`

  datatype Response<T> = Response(status: int, body: Body<T>)

  /** A handled request: the arguments the service was called with (`None`: not called) and the response. */
  datatype Handled<C, T> = Handled(call: Option<C>, response: Response<T>)

  /** `err.response?.data || err.message` */
  function ReplyOrMessage(f: Fault): (r: Said)
    ensures f.response.Some? && Truthy(f.response.value.data) ==> r == FromValue(f.response.value.data)
    ensures f.response.None? || !Truthy(f.response.value.data) ==> r == FromMessage(f.message)
  {
    if Truthy(DetailsOf(f)) then FromValue(DetailsOf(f)) else FromMessage(f.message)
  }
}

=== FILE: js.dfy ===
/**
 * The JavaScript values the services read from request bodies and ledger
 * replies, with the handful of language rules the services rely on:
 * truthiness, `||`, optional chaining, object spread, strict equality,
 * numeric coercion, `parseFloat`, `toString` and `String.prototype.includes`.
 *
 * Numbers are exact reals; `Number` adds the one IEEE value the services can
 * meet, NaN, because `parseFloat` of a non-numeral yields it and every
 * comparison against it is false.
 */
module Js {
  import opened Wrappers

  /**
   * A JSON value. Strings are split in two: `Numeral(v)` is a string whose
   * text is a decimal numeral of `v` (the ledger's amounts, the literal "0",
   * what `toString` makes of a number); `Str(s)` is any other text. The
   * split is the model's convention, not a checked invariant: numeric text
   * must arrive as `Numeral`, and a `Str` holding a numeral (`Str("-5")`)
   * converts to NaN where JavaScript gives the number.
   */
  datatype Value =
    | Undefined
    | Null
    | Bool(b: bool)
    | Num(n: real)
    | Numeral(v: real)
    | Str(s: string)
    | Arr(items: seq<Value>)
    | Obj(fields: map<string, Value>)

  /** JavaScript truthiness: `undefined`, `null`, `false`, `0` and `""` are falsy. */
  predicate Truthy(v: Value) {
    match v
    case Undefined => false
    case Null => false
    case Bool(b) => b
    case Num(n) => n != 0.0
    case Numeral(_) => true
    case Str(s) => s != ""
    case Arr(_) => true
    case Obj(_) => true
  }

  /** `a || b` */
  function Or(a: Value, b: Value): Value {
    if Truthy(a) then a else b
  }

  /** `v?.key`: the field of an object that has it, `undefined` otherwise. */
  function Get(v: Value, key: string): Value {
    if v.Obj? && key in v.fields then v.fields[key] else Undefined
  }

  /** `v.key`: like `Get`, but reading a property of `undefined` or `null` throws. */
  predicate Readable(v: Value) {
    !v.Undefined? && !v.Null?
  }

  /** The fields `...v` contributes to an object literal. */
  function Spread(v: Value): map<string, Value> {
    if v.Obj? then v.fields else map[]
  }

  /**
   * `a === b`. Two objects or arrays from different sources are different
   * references, so they are never strictly equal here.
   */
  predicate StrictEq(a: Value, b: Value) {
    match (a, b)
    case (Undefined, Undefined) => true
    case (Null, Null) => true
    case (Bool(x), Bool(y)) => x == y
    case (Num(x), Num(y)) => x == y
    case (Numeral(x), Numeral(y)) => x == y
    case (Str(x), Str(y)) => x == y
    case _ => false
  }

  /** A JavaScript number: exact, or NaN. */
  datatype Number = Real(r: real) | NaN

  function Add(a: Number, b: Number): Number {
    if a.Real? && b.Real? then Real(a.r + b.r) else NaN
  }

  /** Addition of numbers associates, NaN included. */
  lemma AddAssociates(a: Number, b: Number, c: Number)
    ensures Add(Add(a, b), c) == Add(a, Add(b, c))
  {
  }

  function Times(a: Number, k: real): Number {
    if a.Real? then Real(a.r * k) else NaN
  }

  function Over(a: Number, k: real): Number
    requires k != 0.0
  {
    if a.Real? then Real(a.r / k) else NaN
  }

  /** `a >= b`; false as soon as either side is NaN. */
  predicate AtLeast(a: Number, b: Number) {
    a.Real? && b.Real? && a.r >= b.r
  }

  /** `a <= b`; false as soon as either side is NaN. */
  predicate AtMost(a: Number, b: Number) {
    a.Real? && b.Real? && a.r <= b.r
  }

  /**
   * The characters the conversion to a number skips around a numeral: the
   * ECMAScript WhiteSpace and LineTerminator code points.
   */
  const WhiteSpace: set<char> := {
    '\t', '\n', '\U{000B}', '\U{000C}', '\r', ' ', '\U{00A0}', '\U{1680}',
    '\U{2000}', '\U{2001}', '\U{2002}', '\U{2003}', '\U{2004}', '\U{2005}', '\U{2006}',
    '\U{2007}', '\U{2008}', '\U{2009}', '\U{200A}', '\U{2028}', '\U{2029}', '\U{202F}',
    '\U{205F}', '\U{3000}', '\U{FEFF}'}

  /** Text made only of white space, the empty text included. */
  predicate Blank(s: string) {
    forall i :: 0 <= i < |s| ==> s[i] in WhiteSpace
  }

  /**
   * The implicit conversion `amount <= 0` and `amount * k` apply. Blank text
   * is 0; any other non-numeral text is NaN. An array
   * converts through its text: `[]` is 0, `[x]` is x's text, longer arrays
   * hold a comma and are NaN.
   */
  function ToNumber(v: Value): Number {
    match v
    case Undefined => NaN
    case Null => Real(0.0)
    case Bool(b) => if b then Real(1.0) else Real(0.0)
    case Num(n) => Real(n)
    case Numeral(x) => Real(x)
    case Str(s) => if Blank(s) then Real(0.0) else NaN
    case Obj(_) => NaN
    case Arr(items) =>
      if |items| == 0 then Real(0.0)
      else if |items| == 1 then
        (match items[0]
         case Undefined => Real(0.0)
         case Null => Real(0.0)
         case Bool(_) => NaN
         case _ => ToNumber(items[0]))
      else NaN
  }

  /** `parseFloat(v)`: reads a leading numeral of `String(v)`, NaN when there is none. */
  function ParseFloat(v: Value): Number {
    match v
    case Num(n) => Real(n)
    case Numeral(x) => Real(x)
    case Arr(items) =>
      if |items| == 0 || items[0].Undefined? || items[0].Null? then NaN
      else ParseFloat(items[0])
    case _ => NaN
  }

  /** `parseFloat(v || 0)`: a falsy amount counts as zero. */
  function ParseFloatOrZero(v: Value): (r: Number)
    ensures !Truthy(v) ==> r == Real(0.0)
    ensures Truthy(v) ==> r == ParseFloat(v)
  {
    ParseFloat(Or(v, Num(0.0)))
  }

  /**
   * `0 + f(x0) + f(x1) + ...`, added from the left as both `reduce` and a
   * `+=` loop do; one NaN term makes the whole sum NaN.
   */
  function SumOf<T>(xs: seq<T>, f: T -> Number): Number
    decreases |xs|
  {
    if |xs| == 0 then Real(0.0) else Add(SumOf(xs[..|xs| - 1], f), f(xs[|xs| - 1]))
  }

  /** The sum of a list is the sum of its two parts, so each element is counted once. */
  lemma {:induction false} SumOfAppend<T>(a: seq<T>, b: seq<T>, f: T -> Number)
    ensures SumOf(a + b, f) == Add(SumOf(a, f), SumOf(b, f))
    decreases |b|
  {
    if |b| == 0 {
      assert a + b == a;
    } else {
      var b', last := b[..|b| - 1], b[|b| - 1];
      assert (a + b)[..|a + b| - 1] == a + b';
      assert SumOf(a + b, f) == Add(SumOf(a + b', f), f(last));
      SumOfAppend(a, b', f);
      AddAssociates(SumOf(a, f), SumOf(b', f), f(last));
    }
  }

  /** `String(n)` for a number. */
  function NumberText(n: Number): Value {
    match n
    case Real(x) => Numeral(x)
    case NaN => Str("NaN")
  }

  /** A text value: a numeral string or any other string. */
  predicate IsText(v: Value) {
    v.Str? || v.Numeral?
  }

  /**
   * `v.toString()`; `None` when `v` is `undefined` or `null` (a TypeError).
   * Whatever it returns is a string.
   */
  function ToText(v: Value): (r: Option<Value>)
    ensures r.None? <==> !Readable(v)
    ensures r.Some? ==> IsText(r.value)
    ensures IsText(v) ==> r == Some(v)
  {
    match v
    case Undefined => None
    case Null => None
    case Bool(b) => Some(if b then Str("true") else Str("false"))
    case Num(n) => Some(Numeral(n))
    case Numeral(x) => Some(Numeral(x))
    case Str(s) => Some(Str(s))
    case Obj(_) => Some(Str("[object Object]"))
    case Arr(items) =>
      if |items| == 1 && !items[0].Undefined? && !items[0].Null? then ToText(items[0])
      else Some(Str(""))
  }

  /** `sub` occurs in `s` starting at index `i`. */
  predicate OccursAt(s: string, sub: string, i: nat) {
    i + |sub| <= |s| && s[i..i + |sub|] == sub
  }

  /** `s.includes(sub)` */
  function Includes(s: string, sub: string): (r: bool)
    ensures r <==> exists i: nat :: OccursAt(s, sub, i)
  {
    IncludesFrom(s, sub, 0)
  }

  function IncludesFrom(s: string, sub: string, start: nat): (r: bool)
    requires start <= |s|
    decreases |s| - start
    ensures r <==> exists i: nat :: start <= i && OccursAt(s, sub, i)
  {
    if start + |sub| > |s| then false
    else if OccursAt(s, sub, start) then true
    else IncludesFrom(s, sub, start + 1)
  }

  /** A string contains every string it ends with. */
  lemma IncludesSuffix(prefix: string, suffix: string)
    ensures Includes(prefix + suffix, suffix)
  {
    assert OccursAt(prefix + suffix, suffix, |prefix|) by {
      assert (prefix + suffix)[|prefix|..|prefix| + |suffix|] == suffix;
    }
  }
}

=== FILE: ledger.dfy ===
/**
 * The ledger's JSON API as the services see it: the entries of an
 * active-contract query, the events of a submitted transaction, the
 * commands the services submit, and the errors a failed call raises.
 * Also the two rules every service shares: the ledger-end offset fallback
 * and "the first created event that matches".
 */
module Ledger {
  import opened Wrappers
  import opened Js
  import Seqs

  /** A `CreatedEvent`: every field may be missing from the reply. */
  datatype CreatedEvent = CreatedEvent(
    contractId: Option<string>,
    templateId: Option<string>,
    createArgument: Value,
    createdAt: Value)

  /** A transaction event; only `CreatedEvent`s are read, archives and exercises are `OtherEvent`. */
  datatype Event = Created(created: CreatedEvent) | OtherEvent

  /** `contractEntry.JsActiveContract` of an active-contract entry. */
  datatype ActiveContract = ActiveContract(createdEvent: Option<CreatedEvent>)

  /**
   * One entry of an active-contract reply; `active` is `None` for entries that
   * carry no `JsActiveContract` (incomplete assignments and the like).
   */
  datatype AcsEntry = AcsEntry(active: Option<ActiveContract>)

  /** `result.transaction` of submit-and-wait-for-transaction. */
  datatype Transaction = Transaction(events: Option<seq<Event>>)

  datatype TxReply = TxReply(transaction: Option<Transaction>)

  /** A contract id as a JSON value: `undefined` when the event carries none. */
  function IdValue(id: Option<string>): Value {
    match id
    case Some(s) => Str(s)
    case None => Undefined
  }

  /** The entry carries an active contract with a created event. */
  predicate Carries(e: AcsEntry) {
    e.active.Some? && e.active.value.createdEvent.Some?
  }

  function EventOf(e: AcsEntry): CreatedEvent
    requires Carries(e)
  {
    e.active.value.createdEvent.value
  }

  /** `entry?.contractEntry?.JsActiveContract?.createdEvent?.createArgument` */
  function ArgsOf(e: AcsEntry): Value {
    if e.active.Some? && e.active.value.createdEvent.Some? then e.active.value.createdEvent.value.createArgument
    else Undefined
  }

  predicate IsCreated(e: Event) {
    e.Created?
  }

  /** The created events among `events`, in order (`events.filter((e) => e.CreatedEvent)`). */
  function CreatedEvents(events: seq<Event>): (r: seq<CreatedEvent>)
    ensures |r| == |Seqs.Filter(events, IsCreated)| <= |events|
    ensures forall k :: 0 <= k < |r| ==> Created(r[k]) == Seqs.Filter(events, IsCreated)[k]
  {
    var kept := Seqs.Filter(events, IsCreated);
    seq(|kept|, k requires 0 <= k < |kept| => kept[k].created)
  }

  /** `result.transaction?.events`, an absent list read as empty. */
  function EventsOf(tx: Option<Transaction>): seq<Event> {
    if tx.Some? && tx.value.events.Some? then tx.value.events.value else []
  }

  // ---------------------------------------------------------------------
  // Commands
  // ---------------------------------------------------------------------

  datatype Command =
    | CreateCommand(templateId: string, createArguments: map<string, Value>)
    | ExerciseCommand(templateId: string, contractId: Value, choice: string, choiceArgument: map<string, Value>)

  /**
   * A command submission. The command id is a fixed prefix followed by the
   * submission time; only the prefix is kept.
   */
  datatype Submission = Submission(
    endpoint: string,
    actAs: seq<Value>,
    readAs: Option<seq<Value>>,
    commandIdPrefix: string,
    commands: seq<Command>)

  /** The CIP-56 holding template of a package. */
  function HoldingTemplateIn(package: string): string {
    package + ":CIP56.Token:CIP56Holding"
  }

  /** An active-contract query: one party, one template, pinned at an offset. */
  datatype AcsQuery = AcsQuery(party: Value, templateId: string, offset: Value)

  /**
   * A query operation: the query it sent (`None` when it failed before
   * sending one) and its outcome.
   */
  datatype Queried<T> = Queried(query: Option<AcsQuery>, outcome: Result<T, Fault>)

  // ---------------------------------------------------------------------
  // Errors
  // ---------------------------------------------------------------------

  /** The message of a thrown JavaScript error. */
  datatype Message =
    | Text(s: string)                      // an error built with a fixed message
    | UndefinedRead(property: string)      // TypeError: reading `property` of undefined
    | NotAFunction(callee: string)         // TypeError: `callee` is not a function
    | InsufficientBalance(required: Value) // `Insufficient balance. Required: ${required} tokens`

  predicate MessageTruthy(m: Message) {
    !(m.Text? && m.s == "")
  }

  /** `err.response` of a failed HTTP call: the status and the parsed body. */
  datatype Reply = Reply(status: int, data: Value)

  /** A thrown error: its message and, for a failed HTTP call, the response. */
  datatype Fault = Fault(message: Message, response: Option<Reply>)

  function Thrown(m: Message): Fault {
    Fault(m, None)
  }

  /** `err.response?.data`, or `undefined`. */
  function DetailsOf(f: Fault): Value {
    if f.response.Some? then f.response.value.data else Undefined
  }

  /** `err.response?.status`, or `undefined`. */
  function StatusOf(f: Fault): Option<int> {
    if f.response.Some? then Some(f.response.value.status) else None
  }

  /**
   * The value of an expression `x || err.message`: either a value from a
   * reply (or a literal) or the error's own message.
   */
  datatype Said = FromValue(v: Value) | FromMessage(m: Message)

  predicate SaidTruthy(s: Said) {
    match s
    case FromValue(v) => Truthy(v)
    case FromMessage(m) => MessageTruthy(m)
  }

  /** `err.response?.data?.message || err.message` */
  function LedgerMessageOr(f: Fault): (r: Said)
    ensures Truthy(Get(DetailsOf(f), "message")) ==> r == FromValue(Get(DetailsOf(f), "message"))
    ensures !Truthy(Get(DetailsOf(f), "message")) ==> r == FromMessage(f.message)
  {
    var m := Get(DetailsOf(f), "message");
    if Truthy(m) then FromValue(m) else FromMessage(f.message)
  }

  // ---------------------------------------------------------------------
  // Shared rules
  // ---------------------------------------------------------------------

  /**
   * `getLatestOffset`: the `offset` of the ledger-end reply, or "0" when the
   * call fails or the offset is missing or falsy. `reply` is the reply's body.
   */
  function LatestOffset(reply: Result<Value, Fault>): (r: Value)
    ensures Truthy(r)
    ensures reply.Success? && Truthy(Get(reply.value, "offset")) ==> r == Get(reply.value, "offset")
    ensures reply.Failure? || !Truthy(Get(reply.value, "offset")) ==> r == Numeral(0.0)
  {
    match reply
    case Failure(_) => Numeral(0.0)
    case Success(data) => Or(Get(data, "offset"), Numeral(0.0))
  }

  predicate CreatedMatching(e: Event, p: CreatedEvent -> bool) {
    e.Created? && p(e.created)
  }

  /** `events.find(e => e.CreatedEvent && p(e.CreatedEvent))?.CreatedEvent` */
  function FirstCreated(events: seq<Event>, p: CreatedEvent -> bool): (r: Option<CreatedEvent>)
    ensures r.None? <==> forall i :: 0 <= i < |events| ==> !CreatedMatching(events[i], p)
    ensures r.Some? ==> exists i :: 0 <= i < |events| && events[i] == Created(r.value) && p(r.value)
                                    && forall j :: 0 <= j < i ==> !CreatedMatching(events[j], p)
  {
    match Seqs.Find(events, e => CreatedMatching(e, p))
    case None => None
    case Some(i) => Some(events[i].created)
  }

  /** `events[i]` is the first created event that satisfies `p`. */
  predicate IsFirstMatch(events: seq<Event>, p: CreatedEvent -> bool, i: int) {
    && 0 <= i < |events|
    && CreatedMatching(events[i], p)
    && forall j :: 0 <= j < i ==> !CreatedMatching(events[j], p)
  }

  /**
   * `id` is what `events.find(...)?.CreatedEvent?.contractId` reports: absent
   * when no created event matches, else the first match's (possibly absent) id.
   */
  ghost predicate ReportsFirst(events: seq<Event>, p: CreatedEvent -> bool, id: Option<string>) {
    || ((forall i :: 0 <= i < |events| ==> !CreatedMatching(events[i], p)) && id.None?)
    || (exists i :: IsFirstMatch(events, p, i) && id == events[i].created.contractId)
  }

  /** The contract id of the first matching created event of a transaction, if any. */
  function FirstCreatedId(tx: Option<Transaction>, p: CreatedEvent -> bool): (id: Option<string>)
    ensures ReportsFirst(EventsOf(tx), p, id)
  {
    match FirstCreated(EventsOf(tx), p)
    case None => None
    case Some(c) => c.contractId
  }

  /** Matches every created event (`find((e) => e.CreatedEvent)`). */
  function AnyCreated(): CreatedEvent -> bool {
    (c: CreatedEvent) => true
  }

  /** `e.CreatedEvent?.templateId?.includes(sub)` */
  function TemplateIncludes(sub: string): CreatedEvent -> bool {
    (c: CreatedEvent) => c.templateId.Some? && Includes(c.templateId.value, sub)
  }
}

=== FILE: seqs.dfy ===
/**
 * The three array methods the services apply to ledger replies, with the
 * guarantees JavaScript gives them: `find` (first match), `filter` (order-
 * preserving selection) and a `map` whose callback may throw.
 */
module Seqs {
  import opened Wrappers

  /** `s.findIndex(p)`: the index of the first element satisfying `p`. */
  function Find<T>(s: seq<T>, p: T -> bool): (r: Option<nat>)
    ensures r.Some? ==> r.value < |s| && p(s[r.value])
    ensures r.Some? ==> forall j :: 0 <= j < r.value ==> !p(s[j])
    ensures r.None? <==> forall j :: 0 <= j < |s| ==> !p(s[j])
  {
    if |s| == 0 then None
    else if p(s[0]) then Some(0)
    else
      match Find(s[1..], p)
      case None => None
      case Some(i) => Some(i + 1)
  }

  /** `s.filter(p)`, defined element by element from the end of `s`. */
  function Filter<T>(s: seq<T>, p: T -> bool): (r: seq<T>)
    ensures |r| <= |s|
    ensures forall i :: 0 <= i < |r| ==> r[i] in s && p(r[i])
    ensures forall i :: 0 <= i < |s| && p(s[i]) ==> s[i] in r
  {
    if |s| == 0 then []
    else Filter(s[..|s| - 1], p) + (if p(s[|s| - 1]) then [s[|s| - 1]] else [])
  }

  /** Filtering distributes over concatenation, so it keeps the input's order. */
  lemma {:induction false} FilterAppend<T>(a: seq<T>, b: seq<T>, p: T -> bool)
    ensures Filter(a + b, p) == Filter(a, p) + Filter(b, p)
    decreases |b|
  {
    if |b| == 0 {
      assert a + b == a;
    } else {
      var b' := b[..|b| - 1];
      assert (a + b)[..|a + b| - 1] == a + b';
      assert (a + b)[|a + b| - 1] == b[|b| - 1];
      FilterAppend(a, b', p);
    }
  }

  /** Two predicates that agree on every element of `s` select the same elements. */
  lemma {:induction false} FilterCongruent<T>(s: seq<T>, p: T -> bool, q: T -> bool)
    requires forall i :: 0 <= i < |s| ==> p(s[i]) == q(s[i])
    ensures Filter(s, p) == Filter(s, q)
    decreases |s|
  {
    if |s| > 0 {
      FilterCongruent(s[..|s| - 1], p, q);
    }
  }

  /**
   * `s.map(f)` where `f` may throw: the first element whose callback fails
   * makes the whole map fail with that error.
   */
  function MapAll<T, U, E>(s: seq<T>, f: T -> Result<U, E>): (r: Result<seq<U>, E>)
    ensures r.Success? <==> forall i :: 0 <= i < |s| ==> f(s[i]).Success?
    ensures r.Success? ==> |r.value| == |s|
    ensures r.Success? ==> forall i :: 0 <= i < |s| ==> f(s[i]) == Success(r.value[i])
    ensures r.Failure? ==> exists i :: 0 <= i < |s| && f(s[i]) == Failure(r.error)
                                      && forall j :: 0 <= j < i ==> f(s[j]).Success?
  {
    if |s| == 0 then Success([])
    else
      match f(s[0])
      case Failure(e) => Failure(e)
      case Success(u) =>
        match MapAll(s[1..], f)
        case Failure(e) =>
          assert forall j :: 1 <= j < |s| ==> s[j] == s[1..][j - 1];
          Failure(e)
        case Success(us) =>
          assert forall j :: 1 <= j < |s| ==> s[j] == s[1..][j - 1];
          Success([u] + us)
  }
}

=== FILE: staking_controller.dfy ===
/**
 * The staking handlers. The four POST handlers check that their required
 * body fields are truthy before calling the service; the GET handlers fill
 * in the validator party when no party is asked for. Each takes the request
 * and the outcome its service call would have.
 */
module StakingController {
  import opened Wrappers
  import opened Js
  import opened Ledger
  import opened Http
  import StakingService

  const PoolError := "issuer is required. Use the token issuer from /holdings response."
  const PoolHint := "POST /pool/create with body: { \"issuer\": \"party-id::namespace\" }"
  const StakerError := "poolContractId and newStaker are required"
  const StakerHint := "POST /pool/add-staker with body: { \"poolContractId\": \"...\", \"newStaker\": \"party::namespace\" }"
  const DepositError := "poolContractId, staker, holdingCid, and amount are required"
  const DepositHint := "POST /pool/deposit with body: { \"poolContractId\": \"...\", \"staker\": \"party::namespace\", \"holdingCid\": \"...\", \"amount\": \"100\" }"
  const WithdrawError := "stakeContractId and staker are required"
  const WithdrawHint := "POST /stake/withdraw with body: { \"stakeContractId\": \"...\", \"staker\": \"party::namespace\" }"
  const DepositFallback := "Deposit failed"

  /** The response to a service failure: 500 with `error.response?.data || error.message`. */
  function ServiceFailure<T>(f: Fault): Response<T> {
    Response(500, Failed(ReplyOrMessage(f), None))
  }

  /**
   * The shape every POST handler shares: destructure the body (which throws,
   * naming the first field, when it is `undefined`), answer 400 unless every
   * required field is truthy (`complete`), else call the service and answer
   * with its result or its mapped error.
   */
  function Guarded<C, T>(body: Value, first: string, complete: bool, error: string, hint: string, args: C,
                         outcome: Result<T, Fault>, onError: Fault -> Said): (h: Handled<C, T>)
    ensures h.call.Some? <==> Readable(body) && complete
    ensures h.call.Some? ==> h.call.value == args
    ensures !Readable(body) ==> h.response == Response(500, Failed(onError(Thrown(UndefinedRead(first))), None))
    ensures Readable(body) && !complete ==> h.response == Response(400, Invalid(error, Some(hint)))
    ensures h.call.Some? && outcome.Success? ==> h.response == Response(200, Ok(outcome.value))
    ensures h.call.Some? && outcome.Failure? ==> h.response == Response(500, Failed(onError(outcome.error), None))
  {
    if !Readable(body) then Handled(None, Response(500, Failed(onError(Thrown(UndefinedRead(first))), None)))
    else if !complete then Handled(None, Response(400, Invalid(error, Some(hint))))
    else
      match outcome
      case Success(result) => Handled(Some(args), Response(200, Ok(result)))
      case Failure(f) => Handled(Some(args), Response(500, Failed(onError(f), None)))
  }

  /** A handler whose service failed answers 500, never with the failure's own status. */
  lemma FailuresAre500<C, T>(body: Value, first: string, complete: bool, error: string, hint: string, args: C,
                             outcome: Result<T, Fault>, onError: Fault -> Said)
    ensures Guarded(body, first, complete, error, hint, args, outcome, onError).response.status in {200, 400, 500}
    ensures Guarded(body, first, complete, error, hint, args, outcome, onError).response.status == 400 <==>
      Readable(body) && !complete
  {
  }

  // ---------------------------------------------------------------------
  // POST handlers
  // ---------------------------------------------------------------------

  datatype PoolArgs = PoolArgs(issuer: Value)

  /** `createPool(req, res)`: only a truthy `issuer` reaches the service. */
  function CreatePool(body: Value, outcome: Result<StakingService.PoolCreated, Fault>)
    : (h: Handled<PoolArgs, StakingService.PoolCreated>)
    ensures h.call.Some? <==> Readable(body) && Truthy(Get(body, "issuer"))
    ensures h.call.Some? ==> h.call.value == PoolArgs(Get(body, "issuer"))
    ensures Readable(body) && !Truthy(Get(body, "issuer")) ==> h.response == Response(400, Invalid(PoolError, Some(PoolHint)))
    ensures h.call.Some? && outcome.Success? ==> h.response == Response(200, Ok(outcome.value))
    ensures h.call.Some? && outcome.Failure? ==> h.response == ServiceFailure(outcome.error)
    ensures !Readable(body) ==> h.response == ServiceFailure(Thrown(UndefinedRead("issuer")))
  {
    Guarded(body, "issuer", Truthy(Get(body, "issuer")), PoolError, PoolHint, PoolArgs(Get(body, "issuer")), outcome, ReplyOrMessage)
  }

  /**
   * Through the handler, `createPool` never falls back to the DSO issuer:
   * the handler only calls it with a truthy issuer, which the pool keeps.
   */
  lemma HandlerPoolKeepsIssuer(cfg: StakingService.Config, body: Value, reply: Result<TxReply, Fault>)
    requires Readable(body) && Truthy(Get(body, "issuer")) && reply.Success?
    ensures StakingService.CreatePool(cfg, Get(body, "issuer"), reply).outcome.value.issuer == Get(body, "issuer")
  {
  }

  datatype StakerArgs = StakerArgs(poolContractId: Value, newStaker: Value)

  /** `addStaker(req, res)`: both the pool id and the new staker are required. */
  function AddStaker(body: Value, outcome: Result<StakingService.StakerAdded, Fault>)
    : (h: Handled<StakerArgs, StakingService.StakerAdded>)
    ensures h.call.Some? <==> Readable(body) && Truthy(Get(body, "poolContractId")) && Truthy(Get(body, "newStaker"))
    ensures h.call.Some? ==> h.call.value == StakerArgs(Get(body, "poolContractId"), Get(body, "newStaker"))
    ensures Readable(body) && (!Truthy(Get(body, "poolContractId")) || !Truthy(Get(body, "newStaker"))) ==>
      h.response == Response(400, Invalid(StakerError, Some(StakerHint)))
    ensures h.call.Some? && outcome.Success? ==> h.response == Response(200, Ok(outcome.value))
    ensures h.call.Some? && outcome.Failure? ==> h.response == ServiceFailure(outcome.error)
    ensures !Readable(body) ==> h.response == ServiceFailure(Thrown(UndefinedRead("poolContractId")))
  {
    var complete := Truthy(Get(body, "poolContractId")) && Truthy(Get(body, "newStaker"));
    Guarded(body, "poolContractId", complete, StakerError, StakerHint, StakerArgs(Get(body, "poolContractId"), Get(body, "newStaker")),
            outcome, ReplyOrMessage)
  }

  datatype DepositArgs = DepositArgs(poolContractId: Value, staker: Value, holdingCid: Value, amount: Value)

  /** `error.message || error.response?.data?.cause || "Deposit failed"` */
  function DepositErrorText(f: Fault): (r: Said)
    ensures SaidTruthy(r)
    ensures MessageTruthy(f.message) ==> r == FromMessage(f.message)
    ensures !MessageTruthy(f.message) && Truthy(Get(DetailsOf(f), "cause")) ==> r == FromValue(Get(DetailsOf(f), "cause"))
    ensures !MessageTruthy(f.message) && !Truthy(Get(DetailsOf(f), "cause")) ==> r == FromValue(Str(DepositFallback))
  {
    if MessageTruthy(f.message) then FromMessage(f.message)
    else if Truthy(Get(DetailsOf(f), "cause")) then FromValue(Get(DetailsOf(f), "cause"))
    else FromValue(Str(DepositFallback))
  }

  predicate DepositComplete(body: Value) {
    && Truthy(Get(body, "poolContractId")) && Truthy(Get(body, "staker"))
    && Truthy(Get(body, "holdingCid")) && Truthy(Get(body, "amount"))
  }

  /** `deposit(req, res)`: all four fields are required; a failure answers 500 with a friendly message. */
  function Deposit(body: Value, outcome: Result<StakingService.Deposited, Fault>)
    : (h: Handled<DepositArgs, StakingService.Deposited>)
    ensures h.call.Some? <==> Readable(body) && DepositComplete(body)
    ensures h.call.Some? ==>
      h.call.value == DepositArgs(Get(body, "poolContractId"), Get(body, "staker"), Get(body, "holdingCid"), Get(body, "amount"))
    ensures Readable(body) && !DepositComplete(body) ==> h.response == Response(400, Invalid(DepositError, Some(DepositHint)))
    ensures h.call.Some? && outcome.Success? ==> h.response == Response(200, Ok(outcome.value))
    ensures h.call.Some? && outcome.Failure? ==> h.response == Response(500, Failed(DepositErrorText(outcome.error), None))
    ensures !Readable(body) ==> h.response == Response(500, Failed(FromMessage(UndefinedRead("poolContractId")), None))
  {
    Guarded(body, "poolContractId", DepositComplete(body), DepositError, DepositHint,
            DepositArgs(Get(body, "poolContractId"), Get(body, "staker"), Get(body, "holdingCid"), Get(body, "amount")),
            outcome, DepositErrorText)
  }

  /**
   * Every deposit the handler lets through is submitted: a truthy amount
   * always has a `toString`, so the service never fails before sending.
   */
  lemma AcceptedDepositIsSubmitted(cfg: StakingService.Config, body: Value, reply: Result<TxReply, Fault>)
    requires Readable(body) && DepositComplete(body)
    ensures StakingService.Deposit(cfg, Get(body, "poolContractId"), Get(body, "staker"), Get(body, "holdingCid"),
                                   Get(body, "amount"), reply).sent.Some?
  {
  }

  datatype WithdrawArgs = WithdrawArgs(stakeContractId: Value, staker: Value)

  /** `withdraw(req, res)`: both the stake id and the staker are required. */
  function Withdraw(body: Value, outcome: Result<StakingService.Withdrawn, Fault>)
    : (h: Handled<WithdrawArgs, StakingService.Withdrawn>)
    ensures h.call.Some? <==> Readable(body) && Truthy(Get(body, "stakeContractId")) && Truthy(Get(body, "staker"))
    ensures h.call.Some? ==> h.call.value == WithdrawArgs(Get(body, "stakeContractId"), Get(body, "staker"))
    ensures Readable(body) && (!Truthy(Get(body, "stakeContractId")) || !Truthy(Get(body, "staker"))) ==>
      h.response == Response(400, Invalid(WithdrawError, Some(WithdrawHint)))
    ensures h.call.Some? && outcome.Success? ==> h.response == Response(200, Ok(outcome.value))
    ensures h.call.Some? && outcome.Failure? ==> h.response == ServiceFailure(outcome.error)
    ensures !Readable(body) ==> h.response == ServiceFailure(Thrown(UndefinedRead("stakeContractId")))
  {
    var complete := Truthy(Get(body, "stakeContractId")) && Truthy(Get(body, "staker"));
    Guarded(body, "stakeContractId", complete, WithdrawError, WithdrawHint, WithdrawArgs(Get(body, "stakeContractId"), Get(body, "staker")),
            outcome, ReplyOrMessage)
  }

  // ---------------------------------------------------------------------
  // GET handlers
  // ---------------------------------------------------------------------

  /** The response to a query whose service call always happens. */
  function Answer<T>(outcome: Result<T, Fault>): (r: Response<T>)
    ensures outcome.Success? ==> r == Response(200, Ok(outcome.value))
    ensures outcome.Failure? ==> r == ServiceFailure(outcome.error)
  {
    match outcome
    case Success(result) => Response(200, Ok(result))
    case Failure(f) => ServiceFailure(f)
  }

  /** `getPools(req, res)`: no input, so the service is always called. */
  function GetPools(outcome: Result<seq<StakingService.Record>, Fault>): (h: Handled<(), seq<StakingService.Record>>)
    ensures h.call == Some(())
    ensures outcome.Success? ==> h.response == Response(200, Ok(outcome.value))
    ensures outcome.Failure? ==> h.response.status == 500 && h.response.body == Failed(ReplyOrMessage(outcome.error), None)
  {
    Handled(Some(()), Answer(outcome))
  }

  /** `req.query.key || VALIDATOR_PARTY`, where `query` is the parsed query string. */
  function PartyOrValidator(cfg: StakingService.Config, query: map<string, Value>, key: string): (r: Value)
    ensures key in query && Truthy(query[key]) ==> r == query[key]
    ensures !(key in query && Truthy(query[key])) ==> r == Str(cfg.validatorParty)
  {
    Or(Get(Obj(query), key), Str(cfg.validatorParty))
  }

  /**
   * The shape of `getStakes` and `getHoldings`: the service is always called,
   * for the party named by the query parameter `key` or else the validator.
   */
  function ByParty<T>(cfg: StakingService.Config, query: map<string, Value>, key: string, outcome: Result<T, Fault>)
    : (h: Handled<Value, T>)
    ensures h.call.Some?
    ensures key in query && Truthy(query[key]) ==> h.call.value == query[key]
    ensures !(key in query && Truthy(query[key])) ==> h.call.value == Str(cfg.validatorParty)
    ensures outcome.Success? ==> h.response == Response(200, Ok(outcome.value))
    ensures outcome.Failure? ==> h.response == ServiceFailure(outcome.error)
  {
    Handled(Some(PartyOrValidator(cfg, query, key)), Answer(outcome))
  }

  /** `getStakes(req, res)`: the stakes of `?staker=`, or of the validator. */
  function GetStakes(cfg: StakingService.Config, query: map<string, Value>, outcome: Result<seq<StakingService.Record>, Fault>)
    : (h: Handled<Value, seq<StakingService.Record>>)
    ensures "staker" in query && Truthy(query["staker"]) ==> h.call == Some(query["staker"])
    ensures !("staker" in query && Truthy(query["staker"])) ==> h.call == Some(Str(cfg.validatorParty))
    ensures h.response.status in {200, 500}
    ensures outcome.Success? ==> h.response.body == Ok(outcome.value)
    ensures outcome.Failure? ==> h.response.body == Failed(ReplyOrMessage(outcome.error), None)
  {
    ByParty(cfg, query, "staker", outcome)
  }

  /** `getHoldings(req, res)`: the holdings of `?owner=`, or of the validator. */
  function GetHoldings(cfg: StakingService.Config, query: map<string, Value>, outcome: Result<StakingService.HoldingsReport, Fault>)
    : (h: Handled<Value, StakingService.HoldingsReport>)
    ensures "owner" in query && Truthy(query["owner"]) ==> h.call == Some(query["owner"])
    ensures !("owner" in query && Truthy(query["owner"])) ==> h.call == Some(Str(cfg.validatorParty))
    ensures outcome.Success? ==> h.response == Response(200, Ok(outcome.value))
    ensures outcome.Failure? ==> h.response == Response(500, Failed(ReplyOrMessage(outcome.error), None))
  {
    ByParty(cfg, query, "owner", outcome)
  }

  /**
   * Without `?staker=` (or with an empty one), the stakes the handler lists are the validator's: the
   * service queries the active contracts of the validator party.
   */
  lemma DefaultStakesAreValidators(cfg: StakingService.Config, query: map<string, Value>,
                                   offsetReply: Result<Value, Fault>, acs: Result<seq<AcsEntry>, Fault>,
                                   outcome: Result<seq<StakingService.Record>, Fault>)
    requires !("staker" in query && Truthy(query["staker"]))
    ensures var h := GetStakes(cfg, query, outcome);
            var r := StakingService.QueryStakes(cfg, h.call.value, offsetReply, acs);
            r.query.Some? ==> r.query.value.party == Str(cfg.validatorParty)
  {
  }

  /**
   * Without `?owner=` (or with an empty one), the holdings report the handler
   * returns is the validator's.
   */
  lemma DefaultHoldingsAreValidators(cfg: StakingService.Config, query: map<string, Value>,
                                     offsetReply: Result<Value, Fault>, acs: Result<seq<AcsEntry>, Fault>,
                                     outcome: Result<StakingService.HoldingsReport, Fault>)
    requires !("owner" in query && Truthy(query["owner"]))
    ensures var h := GetHoldings(cfg, query, outcome);
            var r := StakingService.QueryHoldings(cfg, h.call.value, offsetReply, acs);
            r.outcome.Success? ==> r.outcome.value.queryParty == Str(cfg.validatorParty)
  {
    var owner := GetHoldings(cfg, query, outcome).call.value;
    var r := StakingService.QueryHoldings(cfg, owner, offsetReply, acs);
    if r.outcome.Success? {
      assert r.query.Some?;
    }
  }
}

=== FILE: staking_service.dfy ===
/**
 * The staking service: a cached bearer token, the request every ledger call
 * is built from, the four commands that create and change pools and stakes,
 * and the three active-contract projections.
 *
 * Each ledger call is an input `Result<reply, Fault>`: `Failure` covers a
 * token refresh that threw as well as a ledger call that did.
 */
module StakingService {
  import opened Wrappers
  import opened Js
  import opened Ledger
  import Seqs

  /** The environment the module reads when it loads. */
  datatype Config = Config(
    ledgerUrl: string,
    validatorParty: string,
    dsoParty: string,        // also the Canton Coin issuer
    package: string,
    holdingPackage: string)

  function StakingPoolTemplate(c: Config): string {
    c.package + ":Staking:StakingPool"
  }

  function StakeTemplate(c: Config): string {
    c.package + ":Staking:Stake"
  }

  function HoldingTemplate(c: Config): string {
    HoldingTemplateIn(c.holdingPackage)
  }

  // ---------------------------------------------------------------------
  // Token cache
  // ---------------------------------------------------------------------

  /**
   * The module-level `accessToken` and `tokenExpiry` (milliseconds); an
   * expiry of `None` is NaN, which no clock reading is below.
   */
  datatype TokenCache = TokenCache(accessToken: Option<string>, tokenExpiry: Option<int>)

  /** The state the module starts in: no token, expiry 0. */
  const Unset := TokenCache(None, Some(0))

  /** Seconds before the granted lifetime ends at which the token is dropped. */
  const SafetyMarginSeconds := 60

  /**
   * The token endpoint's `access_token` and `expires_in` (seconds), which may
   * be absent, and `receivedAt`, the second `Date.now()` reading, taken once
   * the awaited exchange has returned.
   */
  datatype AuthReply = AuthReply(accessToken: string, expiresIn: Option<int>, receivedAt: int)

  /** The cached token may be handed out at time `now`. */
  predicate Live(c: TokenCache, now: int) {
    c.accessToken.Some? && c.accessToken.value != "" && c.tokenExpiry.Some? && now < c.tokenExpiry.value
  }

  /** `Date.now() + (expires_in - 60) * 1000` at clock reading `at`, NaN when `expires_in` is absent. */
  function ExpiryAfter(at: int, expiresIn: Option<int>): Option<int> {
    match expiresIn
    case None => None
    case Some(seconds) => Some(at + (seconds - SafetyMarginSeconds) * 1000)
  }

  /** One `getToken` call: the token (or what the exchange threw), the new cache, and whether the token endpoint was called. */
  datatype TokenStep = TokenStep(token: Result<string, Fault>, cache: TokenCache, fetched: bool)

  /**
   * `getToken` whose first clock reading is `now`; `auth` is what the token
   * endpoint answers if it is called, with the reading taken after it. A live
   * token is reused untouched; otherwise both fields are replaced together,
   * the expiry counted from the later reading, or, if the exchange throws,
   * nothing changes.
   */
  function GetToken(c: TokenCache, now: int, auth: Result<AuthReply, Fault>): (step: TokenStep)
    ensures Live(c, now) ==> step == TokenStep(Success(c.accessToken.value), c, false)
    ensures !Live(c, now) ==> step.fetched
    ensures !Live(c, now) && auth.Success? ==>
      && step.token == Success(auth.value.accessToken)
      && step.cache.accessToken == Some(auth.value.accessToken)
      && (auth.value.expiresIn.Some? ==>
            && step.cache.tokenExpiry.Some?
            && step.cache.tokenExpiry.value + SafetyMarginSeconds * 1000 == auth.value.receivedAt + auth.value.expiresIn.value * 1000)
      && (auth.value.expiresIn.None? ==> step.cache.tokenExpiry.None?)
    ensures !Live(c, now) && auth.Failure? ==> step.token == Failure(auth.error) && step.cache == c
    ensures step.token.Success? ==> step.cache.accessToken == Some(step.token.value)
    ensures step.token.Success? && !step.fetched ==> step.cache.tokenExpiry.Some? && now < step.cache.tokenExpiry.value
  {
    if Live(c, now) then
      TokenStep(Success(c.accessToken.value), c, false)
    else
      match auth
      case Failure(f) => TokenStep(Failure(f), c, true)
      case Success(a) =>
        TokenStep(Success(a.accessToken),
                  TokenCache(Some(a.accessToken), ExpiryAfter(a.receivedAt, a.expiresIn)),
                  true)
  }

  /** One call of `getToken`: its time and what the token endpoint would answer. */
  datatype TokenCall = TokenCall(now: int, auth: Result<AuthReply, Fault>)

  /** The result of a run of `getToken` calls: the final cache and how many exchanges were made. */
  datatype TokenRun = TokenRun(cache: TokenCache, tokens: seq<Result<string, Fault>>, fetches: nat)

  /** Runs `calls` one after another from cache `c`. */
  function Replay(c: TokenCache, calls: seq<TokenCall>): TokenRun
    decreases |calls|
  {
    if |calls| == 0 then TokenRun(c, [], 0)
    else
      var step := GetToken(c, calls[0].now, calls[0].auth);
      var rest := Replay(step.cache, calls[1..]);
      TokenRun(rest.cache, [step.token] + rest.tokens, rest.fetches + if step.fetched then 1 else 0)
  }

  /** The module's first `getToken` always calls the token endpoint. */
  lemma FirstCallFetches(now: int, auth: Result<AuthReply, Fault>)
    ensures GetToken(Unset, now, auth).fetched
  {
  }

  /**
   * While a token is live, any number of calls reuse it: no exchange is made,
   * the cache does not change and every call gets the same token.
   */
  lemma {:induction false} LiveTokenIsReused(c: TokenCache, calls: seq<TokenCall>)
    requires c.accessToken.Some? && c.accessToken.value != "" && c.tokenExpiry.Some?
    requires forall i :: 0 <= i < |calls| ==> calls[i].now < c.tokenExpiry.value
    ensures Replay(c, calls).fetches == 0
    ensures Replay(c, calls).cache == c
    ensures Replay(c, calls).tokens == seq(|calls|, _ => Success(c.accessToken.value))
    decreases |calls|
  {
    if |calls| > 0 {
      assert Live(c, calls[0].now);
      LiveTokenIsReused(c, calls[1..]);
    }
  }

  /**
   * A refresh that grants a lifetime serves every later call made before the
   * new expiry: a whole run of such calls makes exactly one exchange.
   */
  lemma RefreshServesLaterCalls(c: TokenCache, now: int, reply: AuthReply, later: seq<TokenCall>)
    requires !Live(c, now)
    requires reply.accessToken != "" && reply.expiresIn.Some?
    requires forall i :: 0 <= i < |later| ==>
      later[i].now < reply.receivedAt + (reply.expiresIn.value - SafetyMarginSeconds) * 1000
    ensures Replay(c, [TokenCall(now, Success(reply))] + later).fetches == 1
    ensures forall i :: 0 <= i < |Replay(c, [TokenCall(now, Success(reply))] + later).tokens| ==>
      Replay(c, [TokenCall(now, Success(reply))] + later).tokens[i] == Success(reply.accessToken)
  {
    var calls := [TokenCall(now, Success(reply))] + later;
    assert calls[1..] == later;
    var renewed := GetToken(c, now, Success(reply)).cache;
    LiveTokenIsReused(renewed, later);
  }

  /**
   * A token reply without `expires_in` leaves a NaN expiry, which no clock
   * reading is below: as long as every later reply also lacks `expires_in`,
   * every call, whatever its time, calls the token endpoint again.
   */
  lemma {:induction false} NoLifetimeRefreshesEveryCall(token: string, calls: seq<TokenCall>)
    requires forall i :: 0 <= i < |calls| ==> calls[i].auth.Success? && calls[i].auth.value.expiresIn.None?
    ensures Replay(TokenCache(Some(token), None), calls).fetches == |calls|
    decreases |calls|
  {
    if |calls| > 0 {
      var step := GetToken(TokenCache(Some(token), None), calls[0].now, calls[0].auth);
      assert step.cache == TokenCache(Some(calls[0].auth.value.accessToken), None);
      NoLifetimeRefreshesEveryCall(calls[0].auth.value.accessToken, calls[1..]);
    }
  }

  // ---------------------------------------------------------------------
  // Ledger request
  // ---------------------------------------------------------------------

  /** The axios request `ledgerRequest` sends; `data` is the JSON body, if any. */
  datatype RequestConfig<D> = RequestConfig(
    verb: string,
    url: string,
    contentType: string,
    authorization: string,
    data: Option<D>)

  datatype RequestStep<D> = RequestStep(config: Result<RequestConfig<D>, Fault>, cache: TokenCache)

  /**
   * `ledgerRequest(endpoint, data, method)`: fetch a token, then build the
   * request. `data` is `None` for a null body; `verb` is the HTTP method.
   */
  function LedgerRequest<D(==)>(cfg: Config, c: TokenCache, now: int, auth: Result<AuthReply, Fault>,
                                endpoint: string, data: Option<D>, verb: string): (r: RequestStep<D>)
    ensures r.cache == GetToken(c, now, auth).cache
    ensures r.config.Failure? <==> GetToken(c, now, auth).token.Failure?
    ensures r.config.Success? ==>
      && r.config.value.url == cfg.ledgerUrl + "/v2/" + endpoint
      && r.config.value.authorization == "Bearer " + GetToken(c, now, auth).token.value
      && r.config.value.verb == verb
      && r.config.value.contentType == "application/json"
    ensures r.config.Success? ==> (r.config.value.data.Some? <==> data.Some? && verb == "POST")
    ensures r.config.Success? && r.config.value.data.Some? ==> r.config.value.data == data
  {
    var step := GetToken(c, now, auth);
    match step.token
    case Failure(f) => RequestStep(Failure(f), step.cache)
    case Success(token) =>
      RequestStep(Success(RequestConfig(verb, cfg.ledgerUrl + "/v2/" + endpoint, "application/json",
                                        "Bearer " + token,
                                        if data.Some? && verb == "POST" then data else None)),
                  step.cache)
  }

  /** `getLedgerEndOffset`: the `offset` field of the ledger-end reply's body. */
  function LedgerEndOffset(reply: Result<Value, Fault>): (r: Result<Value, Fault>)
    ensures reply.Failure? ==> r == reply
    ensures reply.Success? && Readable(reply.value) ==> r == Success(Get(reply.value, "offset"))
    ensures reply.Success? && !Readable(reply.value) ==> r == Failure(Thrown(UndefinedRead("offset")))
  {
    match reply
    case Failure(f) => Failure(f)
    case Success(data) =>
      if Readable(data) then Success(Get(data, "offset")) else Failure(Thrown(UndefinedRead("offset")))
  }

  // ---------------------------------------------------------------------
  // Commands
  // ---------------------------------------------------------------------

  const SubmitForTransaction := "commands/submit-and-wait-for-transaction"

  /** A command operation: the submission handed to `ledgerRequest` (if it got that far) and the outcome. */
  datatype Submitted<T> = Submitted(sent: Option<Submission>, outcome: Result<T, Fault>)

  function CreatePoolSubmission(cfg: Config, issuer: Value): (s: Submission)
    ensures |s.commands| == 1 && s.commands[0].CreateCommand?
    ensures s.commands[0].templateId == StakingPoolTemplate(cfg)
    ensures s.commands[0].createArguments.Keys == {"operator", "issuer", "stakers"}
    ensures s.commands[0].createArguments["operator"] == Str(cfg.validatorParty)
    ensures s.commands[0].createArguments["stakers"] == Arr([])
    ensures Truthy(issuer) ==> s.commands[0].createArguments["issuer"] == issuer
    ensures !Truthy(issuer) ==> s.commands[0].createArguments["issuer"] == Str(cfg.dsoParty)
    ensures s.actAs == [Str(cfg.validatorParty)] && s.readAs.None?
  {
    Submission(SubmitForTransaction, [Str(cfg.validatorParty)], None, "create-pool-",
      [CreateCommand(StakingPoolTemplate(cfg),
                     map["operator" := Str(cfg.validatorParty),
                         "issuer" := Or(issuer, Str(cfg.dsoParty)),
                         "stakers" := Arr([])])])
  }

  datatype PoolCreated = PoolCreated(contractId: Option<string>, issuer: Value, transaction: Option<Transaction>)

  /**
   * `createPool(issuer)`: submit the pool's creation, then report the id of
   * the transaction's first created event. A transaction without one is
   * still a success, with the id absent.
   */
  function CreatePool(cfg: Config, issuer: Value, reply: Result<TxReply, Fault>): (r: Submitted<PoolCreated>)
    ensures r.sent == Some(CreatePoolSubmission(cfg, issuer))
    ensures reply.Failure? ==> r.outcome == Failure(reply.error)
    ensures reply.Success? ==> r.outcome.Success?
    ensures reply.Success? ==>
      && r.outcome.value.issuer == (if Truthy(issuer) then issuer else Str(cfg.dsoParty))
      && r.outcome.value.transaction == reply.value.transaction
      && ReportsFirst(EventsOf(reply.value.transaction), AnyCreated(), r.outcome.value.contractId)
  {
    var sent := CreatePoolSubmission(cfg, issuer);
    match reply
    case Failure(f) => Submitted(Some(sent), Failure(f))
    case Success(tx) =>
      Submitted(Some(sent), Success(PoolCreated(FirstCreatedId(tx.transaction, AnyCreated()),
                                                Or(issuer, Str(cfg.dsoParty)), tx.transaction)))
  }

  function AddStakerSubmission(cfg: Config, pool: Value, newStaker: Value): (s: Submission)
    ensures |s.commands| == 1 && s.commands[0].ExerciseCommand?
    ensures s.commands[0].templateId == StakingPoolTemplate(cfg)
    ensures s.commands[0].contractId == pool && s.commands[0].choice == "AddStaker"
    ensures s.commands[0].choiceArgument == map["newStaker" := newStaker]
    ensures s.actAs == [Str(cfg.validatorParty)] && s.readAs.None?
  {
    Submission(SubmitForTransaction, [Str(cfg.validatorParty)], None, "add-staker-",
      [ExerciseCommand(StakingPoolTemplate(cfg), pool, "AddStaker", map["newStaker" := newStaker])])
  }

  datatype StakerAdded = StakerAdded(newPoolContractId: Option<string>, transaction: Option<Transaction>)

  /** `addStaker`: exercise AddStaker on the pool and report the successor pool's id. */
  function AddStaker(cfg: Config, pool: Value, newStaker: Value, reply: Result<TxReply, Fault>): (r: Submitted<StakerAdded>)
    ensures r.sent == Some(AddStakerSubmission(cfg, pool, newStaker))
    ensures reply.Failure? ==> r.outcome == Failure(reply.error)
    ensures reply.Success? ==> r.outcome.Success?
    ensures reply.Success? ==>
      && r.outcome.value.transaction == reply.value.transaction
      && ReportsFirst(EventsOf(reply.value.transaction), AnyCreated(), r.outcome.value.newPoolContractId)
  {
    var sent := AddStakerSubmission(cfg, pool, newStaker);
    match reply
    case Failure(f) => Submitted(Some(sent), Failure(f))
    case Success(tx) =>
      Submitted(Some(sent), Success(StakerAdded(FirstCreatedId(tx.transaction, AnyCreated()), tx.transaction)))
  }

  /**
   * The deposit submission. `amount.toString()` runs while the body is built,
   * so an `undefined` or `null` amount throws before anything is sent.
   */
  function DepositSubmission(cfg: Config, pool: Value, staker: Value, holdingCid: Value, amount: Value): (r: Option<Submission>)
    ensures r.None? <==> !Readable(amount)
    ensures r.Some? ==> |r.value.commands| == 1 && r.value.commands[0].ExerciseCommand?
    ensures r.Some? ==>
      var cmd := r.value.commands[0];
      && cmd.templateId == StakingPoolTemplate(cfg)
      && cmd.contractId == pool
      && cmd.choice == "Deposit"
      && cmd.choiceArgument.Keys == {"staker", "holdingCid", "amount"}
      && cmd.choiceArgument["staker"] == staker
      && cmd.choiceArgument["holdingCid"] == holdingCid
      && IsText(cmd.choiceArgument["amount"])
      && (IsText(amount) ==> cmd.choiceArgument["amount"] == amount)
      && (amount.Num? ==> cmd.choiceArgument["amount"] == Numeral(amount.n))
    ensures r.Some? ==> r.value.actAs == [staker] && r.value.readAs == Some([Str(cfg.validatorParty)])
  {
    match ToText(amount)
    case None => None
    case Some(text) =>
      Some(Submission(SubmitForTransaction, [staker], Some([Str(cfg.validatorParty)]), "deposit-",
        [ExerciseCommand(StakingPoolTemplate(cfg), pool, "Deposit",
                         map["staker" := staker, "holdingCid" := holdingCid, "amount" := text])]))
  }

  datatype Deposited = Deposited(stakeContractId: Option<string>, transaction: Option<Transaction>)

  /** The text `deposit` looks for in a created event's template id. */
  const StakeMarker := ":Stake"

  /**
   * `deposit`: submit the Deposit exercise straight away (no lookup of the
   * pool, the holding or the staker precedes it), then report the first
   * created event whose template id contains ":Stake".
   */
  function Deposit(cfg: Config, pool: Value, staker: Value, holdingCid: Value, amount: Value,
                   reply: Result<TxReply, Fault>): (r: Submitted<Deposited>)
    ensures r.sent == DepositSubmission(cfg, pool, staker, holdingCid, amount)
    ensures r.sent.None? ==> r.outcome == Failure(Thrown(UndefinedRead("toString")))
    ensures r.sent.Some? && reply.Failure? ==> r.outcome == Failure(reply.error)
    ensures r.sent.Some? && reply.Success? ==> r.outcome.Success?
    ensures r.sent.Some? && reply.Success? ==>
      && r.outcome.value.transaction == reply.value.transaction
      && ReportsFirst(EventsOf(reply.value.transaction), TemplateIncludes(StakeMarker), r.outcome.value.stakeContractId)
  {
    match DepositSubmission(cfg, pool, staker, holdingCid, amount)
    case None => Submitted(None, Failure(Thrown(UndefinedRead("toString"))))
    case Some(sent) =>
      match reply
      case Failure(f) => Submitted(Some(sent), Failure(f))
      case Success(tx) =>
        Submitted(Some(sent), Success(Deposited(FirstCreatedId(tx.transaction, TemplateIncludes(StakeMarker)), tx.transaction)))
  }

  function WithdrawSubmission(cfg: Config, stake: Value, staker: Value): (s: Submission)
    ensures |s.commands| == 1 && s.commands[0].ExerciseCommand?
    ensures s.commands[0].templateId == StakeTemplate(cfg)
    ensures s.commands[0].contractId == stake && s.commands[0].choice == "Withdraw"
    ensures s.commands[0].choiceArgument == map[]
    ensures s.actAs == [staker] && s.readAs.None?
  {
    Submission(SubmitForTransaction, [staker], None, "withdraw-",
      [ExerciseCommand(StakeTemplate(cfg), stake, "Withdraw", map[])])
  }

  datatype Withdrawn = Withdrawn(holdingContractId: Option<string>, transaction: Option<Transaction>)

  /** The text `withdraw` looks for in a created event's template id. */
  const HoldingMarker := "CIP56Holding"

  /** `withdraw`: exercise Withdraw on the stake, then report the first created holding. */
  function Withdraw(cfg: Config, stake: Value, staker: Value, reply: Result<TxReply, Fault>): (r: Submitted<Withdrawn>)
    ensures r.sent == Some(WithdrawSubmission(cfg, stake, staker))
    ensures reply.Failure? ==> r.outcome == Failure(reply.error)
    ensures reply.Success? ==> r.outcome.Success?
    ensures reply.Success? ==>
      && r.outcome.value.transaction == reply.value.transaction
      && ReportsFirst(EventsOf(reply.value.transaction), TemplateIncludes(HoldingMarker), r.outcome.value.holdingContractId)
  {
    var sent := WithdrawSubmission(cfg, stake, staker);
    match reply
    case Failure(f) => Submitted(Some(sent), Failure(f))
    case Success(tx) =>
      Submitted(Some(sent), Success(Withdrawn(FirstCreatedId(tx.transaction, TemplateIncludes(HoldingMarker)), tx.transaction)))
  }

  /** A created Stake contract is always one `deposit` recognises. */
  lemma StakeTemplateRecognised(cfg: Config, ev: CreatedEvent)
    requires ev.templateId == Some(StakeTemplate(cfg))
    ensures TemplateIncludes(StakeMarker)(ev)
  {
    assert StakeTemplate(cfg) == (cfg.package + ":Staking") + StakeMarker;
    IncludesSuffix(cfg.package + ":Staking", StakeMarker);
  }

  /** A created holding of the configured template is always one `withdraw` recognises. */
  lemma HoldingTemplateRecognised(cfg: Config, ev: CreatedEvent)
    requires ev.templateId == Some(HoldingTemplate(cfg))
    ensures TemplateIncludes(HoldingMarker)(ev)
  {
    assert HoldingTemplate(cfg) == (cfg.holdingPackage + ":CIP56.Token:") + HoldingMarker;
    IncludesSuffix(cfg.holdingPackage + ":CIP56.Token:", HoldingMarker);
  }

  // ---------------------------------------------------------------------
  // Active-contract projections
  // ---------------------------------------------------------------------

  /** A projected contract: its fields by name. */
  type Record = map<string, Value>

  predicate HasActive(e: AcsEntry) {
    e.active.Some?
  }

  /** The entries `.filter((r) => r.contractEntry?.JsActiveContract)` keeps. */
  function ActiveEntries(entries: seq<AcsEntry>): seq<AcsEntry> {
    Seqs.Filter(entries, HasActive)
  }

  /** `{contractId: event.contractId, ...event.createArgument}`; later fields win. */
  ghost predicate Projects(rec: Record, ev: CreatedEvent) {
    && rec.Keys == {"contractId"} + Spread(ev.createArgument).Keys
    && (forall f :: f in Spread(ev.createArgument) ==> rec[f] == Spread(ev.createArgument)[f])
    && ("contractId" !in Spread(ev.createArgument) ==> rec["contractId"] == IdValue(ev.contractId))
  }

  /** The map callback of `queryPools` and `queryStakes`. */
  function ContractRecord(e: AcsEntry): (r: Result<Record, Fault>)
    ensures r.Success? <==> Carries(e)
    ensures e.active.Some? && r.Failure? ==> r.error == Thrown(UndefinedRead("contractId"))
    ensures r.Success? ==> Projects(r.value, EventOf(e))
  {
    if e.active.None? then Failure(Thrown(UndefinedRead("createdEvent")))
    else if e.active.value.createdEvent.None? then Failure(Thrown(UndefinedRead("contractId")))
    else
      var ev := e.active.value.createdEvent.value;
      Success(map["contractId" := IdValue(ev.contractId)] + Spread(ev.createArgument))
  }

  /**
   * The projection shared by `queryPools` and `queryStakes`: one record per
   * entry that has an active contract, in reply order. An active entry
   * without a created event makes the whole projection throw.
   */
  function ActiveRecords(entries: seq<AcsEntry>): (r: Result<seq<Record>, Fault>)
    ensures var kept := ActiveEntries(entries);
      r.Success? <==> forall k :: 0 <= k < |kept| ==> Carries(kept[k])
    ensures r.Failure? ==> r.error == Thrown(UndefinedRead("contractId"))
    ensures r.Success? ==> |r.value| == |ActiveEntries(entries)| <= |entries|
    ensures r.Success? ==> var kept := ActiveEntries(entries);
      forall k :: 0 <= k < |kept| ==> Projects(r.value[k], EventOf(kept[k]))
  {
    var kept := ActiveEntries(entries);
    Seqs.MapAll(kept, ContractRecord)
  }

  /** An active-contract query followed by a projection of its entries. */
  function QueryActive<T>(party: Value, templateId: string, offsetReply: Result<Value, Fault>,
                          acs: Result<seq<AcsEntry>, Fault>,
                          project: seq<AcsEntry> -> Result<T, Fault>): (r: Queried<T>)
    ensures LedgerEndOffset(offsetReply).Failure? ==>
      r == Queried(None, Failure(LedgerEndOffset(offsetReply).error))
    ensures LedgerEndOffset(offsetReply).Success? ==>
      r.query == Some(AcsQuery(party, templateId, LedgerEndOffset(offsetReply).value))
    ensures LedgerEndOffset(offsetReply).Success? && acs.Failure? ==> r.outcome == Failure(acs.error)
    ensures LedgerEndOffset(offsetReply).Success? && acs.Success? ==> r.outcome == project(acs.value)
  {
    match LedgerEndOffset(offsetReply)
    case Failure(f) => Queried(None, Failure(f))
    case Success(offset) =>
      var query := Some(AcsQuery(party, templateId, offset));
      match acs
      case Failure(f) => Queried(query, Failure(f))
      case Success(entries) => Queried(query, project(entries))
  }

  /** `queryPools`: the validator's pools, projected. */
  function QueryPools(cfg: Config, offsetReply: Result<Value, Fault>, acs: Result<seq<AcsEntry>, Fault>): (r: Queried<seq<Record>>)
    ensures r.query.Some? ==> r.query.value.party == Str(cfg.validatorParty)
    ensures r.query.Some? ==> r.query.value.templateId == StakingPoolTemplate(cfg)
    ensures r.query.None? <==> LedgerEndOffset(offsetReply).Failure?
    ensures r.query.Some? ==> r.query.value.offset == LedgerEndOffset(offsetReply).value
    ensures r.query.Some? && acs.Failure? ==> r.outcome == Failure(acs.error)
    ensures r.query.Some? && acs.Success? ==> r.outcome == ActiveRecords(acs.value)
    ensures r.query.None? ==> r.outcome.Failure?
  {
    QueryActive(Str(cfg.validatorParty), StakingPoolTemplate(cfg), offsetReply, acs, ActiveRecords)
  }

  /** `queryStakes(staker)`: the staker's stakes, projected. */
  function QueryStakes(cfg: Config, staker: Value, offsetReply: Result<Value, Fault>, acs: Result<seq<AcsEntry>, Fault>): (r: Queried<seq<Record>>)
    ensures r.query.Some? ==> r.query.value.party == staker
    ensures r.query.Some? ==> r.query.value.templateId == StakeTemplate(cfg)
    ensures r.query.None? <==> LedgerEndOffset(offsetReply).Failure?
    ensures r.query.Some? ==> r.query.value.offset == LedgerEndOffset(offsetReply).value
    ensures r.query.Some? && acs.Failure? ==> r.outcome == Failure(acs.error)
    ensures r.query.Some? && acs.Success? ==> r.outcome == ActiveRecords(acs.value)
    ensures r.query.None? ==> r.outcome.Failure?
  {
    QueryActive(staker, StakeTemplate(cfg), offsetReply, acs, ActiveRecords)
  }

  /** One entry of `queryHoldings`. */
  datatype HoldingView = HoldingView(contractId: Value, issuer: Value, owner: Value, amount: Value, isCantonCoin: bool)

  datatype HoldingsReport = HoldingsReport(queryParty: Value, holdings: seq<HoldingView>, count: nat, totalAmount: Number)

  /** The map callback of `queryHoldings`. */
  function HoldingViewOf(cfg: Config, e: AcsEntry): (r: Result<HoldingView, Fault>)
    ensures r.Success? <==> e.active.Some? && e.active.value.createdEvent.Some?
                            && Readable(e.active.value.createdEvent.value.createArgument)
    ensures r.Success? ==>
      var ev := e.active.value.createdEvent.value;
      && r.value.contractId == IdValue(ev.contractId)
      && r.value.owner == Get(ev.createArgument, "owner")
      && r.value.issuer == Get(ev.createArgument, "issuer")
      && r.value.amount == Get(ev.createArgument, "amount")
      && (r.value.isCantonCoin <==> Get(ev.createArgument, "issuer") == Str(cfg.dsoParty))
  {
    if e.active.None? then Failure(Thrown(UndefinedRead("createdEvent")))
    else if e.active.value.createdEvent.None? then Failure(Thrown(UndefinedRead("contractId")))
    else
      var ev := e.active.value.createdEvent.value;
      var args := ev.createArgument;
      if !Readable(args) then Failure(Thrown(UndefinedRead("issuer")))
      else
        Success(HoldingView(IdValue(ev.contractId), Get(args, "issuer"), Get(args, "owner"), Get(args, "amount"),
                            StrictEq(Get(args, "issuer"), Str(cfg.dsoParty))))
  }

  /** `parseFloat(h.amount || 0)`, the term `holdings.reduce` adds for each holding. */
  function HoldingAmount(h: HoldingView): Number {
    ParseFloatOrZero(h.amount)
  }

  /**
   * The report `queryHoldings` builds from a reply: one view per active
   * entry, in reply order, and `count` the number of views.
   */
  function HoldingsOf(cfg: Config, owner: Value, entries: seq<AcsEntry>): (r: Result<HoldingsReport, Fault>)
    ensures var kept := ActiveEntries(entries);
      r.Success? <==> forall k :: 0 <= k < |kept| ==> HoldingViewOf(cfg, kept[k]).Success?
    ensures r.Success? ==>
      && r.value.queryParty == owner
      && r.value.count == |r.value.holdings| == |ActiveEntries(entries)|
      && r.value.totalAmount == SumOf(r.value.holdings, HoldingAmount)
    ensures r.Success? ==> var kept := ActiveEntries(entries);
      forall k :: 0 <= k < |kept| ==> HoldingViewOf(cfg, kept[k]) == Success(r.value.holdings[k])
  {
    match Seqs.MapAll(ActiveEntries(entries), e => HoldingViewOf(cfg, e))
    case Failure(f) => Failure(f)
    case Success(hs) => Success(HoldingsReport(owner, hs, |hs|, SumOf(hs, HoldingAmount)))
  }

  /** `queryHoldings(owner)`: the owner's holdings of the configured template, reported. */
  function QueryHoldings(cfg: Config, owner: Value, offsetReply: Result<Value, Fault>, acs: Result<seq<AcsEntry>, Fault>): (r: Queried<HoldingsReport>)
    ensures r.query.Some? ==> r.query.value.party == owner && r.query.value.templateId == HoldingTemplate(cfg)
    ensures r.query.None? ==> r.outcome.Failure?
    ensures r.query.Some? && acs.Success? ==> r.outcome == HoldingsOf(cfg, owner, acs.value)
  {
    QueryActive(owner, HoldingTemplate(cfg), offsetReply, acs, entries => HoldingsOf(cfg, owner, entries))
  }
}

=== FILE: transfer_controller.dfy ===
/**
 * The transfer handlers: `POST /api/transfer/direct` and
 * `GET /api/transfer/history/:partyId`. Each takes the request and the
 * outcome its service call would have, and answers with the service's
 * result or an error envelope.
 */
module TransferController {
  import opened Wrappers
  import opened Js
  import opened Ledger
  import opened Http
  import TransferService

  const MissingFields := "Missing required fields: sender, receiver, amount"
  const NotPositive := "Amount must be greater than 0"
  const NoParty := "Party ID is required"

  /** The arguments `directTransfer` is called with. */
  datatype TransferArgs = TransferArgs(sender: Value, receiver: Value, amount: Value)

  /** The three fields are present and truthy. */
  predicate Complete(body: Value) {
    Truthy(Get(body, "sender")) && Truthy(Get(body, "receiver")) && Truthy(Get(body, "amount"))
  }

  /** `amount <= 0`: a NaN amount is not caught here. */
  predicate NonPositive(amount: Value) {
    AtMost(ToNumber(amount), Real(0.0))
  }

  /** The request reaches `directTransfer`: the checks pass and both parties can be logged with `substring`. */
  predicate Accepted(body: Value) {
    && Readable(body) && Complete(body) && !NonPositive(Get(body, "amount"))
    && IsText(Get(body, "sender")) && IsText(Get(body, "receiver"))
  }

  /** `err.error || err.message` of what `directTransfer` throws. */
  function TransferErrorText(e: TransferService.TransferFailure): (r: Said)
    ensures e.TokenFailed? ==> r == FromMessage(e.fault.message)
    ensures e.TransferFailed? && SaidTruthy(e.err.error) ==> r == e.err.error
    ensures e.TransferFailed? && !SaidTruthy(e.err.error) ==> r == FromValue(Undefined)
  {
    match e
    case TokenFailed(f) => FromMessage(f.message)
    case TransferFailed(err) => if SaidTruthy(err.error) then err.error else FromValue(Undefined)
  }

  /** `err.status || 500` */
  function TransferErrorStatus(e: TransferService.TransferFailure): (r: int)
    ensures r != 0
    ensures e.TransferFailed? && e.err.status.Some? && e.err.status.value != 0 ==> r == e.err.status.value
    ensures e.TokenFailed? || e.err.status.None? || e.err.status.value == 0 ==> r == 500
  {
    if e.TransferFailed? && e.err.status.Some? && e.err.status.value != 0 then e.err.status.value else 500
  }

  /** `err.details || null` */
  function TransferErrorDetails(e: TransferService.TransferFailure): (r: Value)
    ensures e.TransferFailed? && Truthy(e.err.details) ==> r == e.err.details
    ensures e.TokenFailed? || !Truthy(e.err.details) ==> r == Null
  {
    if e.TransferFailed? then Or(e.err.details, Null) else Null
  }

  /** The response to an error thrown by `directTransfer`. */
  function TransferFailureResponse(e: TransferService.TransferFailure): Response<TransferService.TransferReceipt> {
    Response(TransferErrorStatus(e), Failed(TransferErrorText(e), Some(TransferErrorDetails(e))))
  }

  /** The response to an error thrown inside the handler itself, before the service is called. */
  function HandlerFailure<T>(m: Message): Response<T> {
    Response(500, Failed(FromMessage(m), Some(Null)))
  }

  /**
   * `transferTokens(req, res)`. `body` is `req.body`; `outcome` is what
   * `directTransfer` would return or throw for the arguments in `call`.
   */
  function TransferTokens(body: Value, outcome: Result<TransferService.TransferReceipt, TransferService.TransferFailure>)
    : (h: Handled<TransferArgs, TransferService.TransferReceipt>)
    ensures h.call.Some? <==> Accepted(body)
    ensures h.call.Some? ==> h.call.value == TransferArgs(Get(body, "sender"), Get(body, "receiver"), Get(body, "amount"))
    ensures !Readable(body) ==> h.response == HandlerFailure(UndefinedRead("sender"))
    ensures Readable(body) && !Complete(body) ==> h.response == Response(400, Invalid(MissingFields, None))
    ensures Readable(body) && Complete(body) && NonPositive(Get(body, "amount")) ==>
      h.response == Response(400, Invalid(NotPositive, None))
    ensures h.response.body.Invalid? <==> Readable(body) && (!Complete(body) || NonPositive(Get(body, "amount")))
    ensures Readable(body) && Complete(body) && !NonPositive(Get(body, "amount")) && !IsText(Get(body, "sender")) ==>
      h.response == HandlerFailure(NotAFunction("sender.substring"))
    ensures Readable(body) && Complete(body) && !NonPositive(Get(body, "amount")) && IsText(Get(body, "sender"))
            && !IsText(Get(body, "receiver")) ==>
      h.response == HandlerFailure(NotAFunction("receiver.substring"))
    ensures h.call.Some? && outcome.Success? ==> h.response == Response(200, Ok(outcome.value))
    ensures h.call.Some? && outcome.Failure? ==> h.response == TransferFailureResponse(outcome.error)
    ensures h.response.body.Ok? <==> h.call.Some? && outcome.Success?
  {
    if !Readable(body) then Handled(None, HandlerFailure(UndefinedRead("sender")))
    else
      var sender, receiver, amount := Get(body, "sender"), Get(body, "receiver"), Get(body, "amount");
      if !Complete(body) then Handled(None, Response(400, Invalid(MissingFields, None)))
      else if NonPositive(amount) then Handled(None, Response(400, Invalid(NotPositive, None)))
      else if !IsText(sender) then Handled(None, HandlerFailure(NotAFunction("sender.substring")))
      else if !IsText(receiver) then Handled(None, HandlerFailure(NotAFunction("receiver.substring")))
      else
        var call := Some(TransferArgs(sender, receiver, amount));
        match outcome
        case Success(result) => Handled(call, Response(200, Ok(result)))
        case Failure(e) => Handled(call, TransferFailureResponse(e))
  }

  /** An amount of zero is rejected by the missing-fields check, not by the sign check. */
  lemma ZeroAmountIsMissing(body: Value, outcome: Result<TransferService.TransferReceipt, TransferService.TransferFailure>)
    requires Readable(body) && (Get(body, "amount") == Num(0.0) || Get(body, "amount") == Undefined)
    ensures TransferTokens(body, outcome).response == Response(400, Invalid(MissingFields, None))
  {
  }

  /**
   * An amount given as the text "0" is truthy, so it passes the missing-fields
   * check and is rejected by the sign check instead.
   */
  lemma ZeroTextIsNotPositive(body: Value, outcome: Result<TransferService.TransferReceipt, TransferService.TransferFailure>)
    requires Readable(body) && Truthy(Get(body, "sender")) && Truthy(Get(body, "receiver"))
    requires Get(body, "amount") == Numeral(0.0)
    ensures TransferTokens(body, outcome).response == Response(400, Invalid(NotPositive, None))
  {
  }

  /**
   * An amount of blank text such as `" "` is truthy, so it passes the
   * missing-fields check, but it converts to 0, so the sign check rejects it
   * and the service is not called.
   */
  lemma BlankAmountIsNotPositive(body: Value, s: string,
                                 outcome: Result<TransferService.TransferReceipt, TransferService.TransferFailure>)
    requires Readable(body) && Truthy(Get(body, "sender")) && Truthy(Get(body, "receiver"))
    requires Get(body, "amount") == Str(s) && s != "" && Blank(s)
    ensures TransferTokens(body, outcome).call.None?
    ensures TransferTokens(body, outcome).response == Response(400, Invalid(NotPositive, None))
  {
  }

  /**
   * A request that reaches the service with an amount that is not a number
   * (`"abc"`, `{}`) passes validation, but no holding covers a NaN
   * requirement, so nothing is ever submitted.
   */
  lemma NonNumericAmountIsNeverSubmitted(cfg: TransferService.Config, body: Value,
                                         token: Result<string, Fault>, offsetReply: Result<Value, Fault>,
                                         acs: Result<Option<seq<AcsEntry>>, Fault>,
                                         submit: Result<TransferService.SubmitReply, Fault>)
    requires Accepted(body) && ToNumber(Get(body, "amount")).NaN?
    ensures TransferService.DirectTransfer(cfg, Get(body, "sender"), Get(body, "receiver"), Get(body, "amount"),
                                           token, offsetReply, acs, submit).sent.None?
  {
    var run := TransferService.DirectTransfer(cfg, Get(body, "sender"), Get(body, "receiver"), Get(body, "amount"),
                                              token, offsetReply, acs, submit);
    if token.Success? && TransferService.HoldingsFor(Get(body, "sender"), acs).Success? {
      var hs := TransferService.HoldingsFor(Get(body, "sender"), acs).value;
      assert forall i :: 0 <= i < |hs| ==> !TransferService.Covers(hs[i], TransferService.BaseUnits(Get(body, "amount")));
    }
  }

  /** The arguments `getTransferHistory` is called with. */
  datatype HistoryArgs = HistoryArgs(partyId: Value)

  /** `err.error || err.message` of what `getTransferHistory` throws. */
  function HistoryErrorText(e: TransferService.HistoryFailure): (r: Said)
    ensures e.HistoryTokenFailed? ==> r == FromMessage(e.fault.message)
    ensures e.HistoryFailed? && SaidTruthy(e.error) ==> r == e.error
    ensures e.HistoryFailed? && !SaidTruthy(e.error) ==> r == FromValue(Undefined)
  {
    match e
    case HistoryTokenFailed(f) => FromMessage(f.message)
    case HistoryFailed(s) => if SaidTruthy(s) then s else FromValue(Undefined)
  }

  /**
   * `getHistory(req, res)`. `partyId` is the route parameter; `outcome` is
   * what `getTransferHistory` would return or throw.
   */
  function GetHistory(partyId: Value, outcome: Result<TransferService.History, TransferService.HistoryFailure>)
    : (h: Handled<HistoryArgs, TransferService.History>)
    ensures h.call.Some? <==> Truthy(partyId) && IsText(partyId)
    ensures h.call.Some? ==> h.call.value == HistoryArgs(partyId)
    ensures !Truthy(partyId) ==> h.response == Response(400, Invalid(NoParty, None))
    ensures Truthy(partyId) && !IsText(partyId) ==>
      h.response == Response(500, Failed(FromMessage(NotAFunction("partyId.substring")), None))
    ensures h.call.Some? && outcome.Success? ==> h.response == Response(200, Ok(outcome.value))
    ensures h.call.Some? && outcome.Failure? ==>
      h.response == Response(500, Failed(HistoryErrorText(outcome.error), None))
    ensures h.response.status in {200, 400, 500}
  {
    if !Truthy(partyId) then Handled(None, Response(400, Invalid(NoParty, None)))
    else if !IsText(partyId) then Handled(None, Response(500, Failed(FromMessage(NotAFunction("partyId.substring")), None)))
    else
      match outcome
      case Success(result) => Handled(Some(HistoryArgs(partyId)), Response(200, Ok(result)))
      case Failure(e) => Handled(Some(HistoryArgs(partyId)), Response(500, Failed(HistoryErrorText(e), None)))
  }
}

=== FILE: transfer_service.dfy ===
/**
 * The transfer service: find the sender's holdings, pick the first one
 * large enough, exercise Transfer on it and report the contracts the
 * transaction created; and list a party's holding history.
 *
 * Ledger calls are inputs. The token comes from the uncached token helper;
 * its failure escapes unwrapped, while every failure after it is rethrown as
 * `{success: false, error, status, details}`.
 */
module TransferService {
  import opened Wrappers
  import opened Js
  import opened Ledger
  import Seqs

  /** `PACKAGE_ID` from the environment. */
  datatype Config = Config(packageId: string)

  function HoldingTemplate(c: Config): string {
    HoldingTemplateIn(c.packageId)
  }

  /** Base units per display unit (`1e18`). */
  const BaseUnitsPerToken: real := 1000000000000000000.0

  /** The symbol reported when a contract's `meta.symbol` is missing. */
  const DefaultSymbol := "PLDM"

  const NoHoldings := "No holdings found for sender"
  const NoOwnedHoldings := "No holdings found where owner matches sender"

  /** A display amount in base units (`amountPLDM * 1e18`). */
  function BaseUnits(amount: Value): Number {
    Times(ToNumber(amount), BaseUnitsPerToken)
  }

  /** `meta?.symbol || 'PLDM'` */
  function SymbolIn(meta: Value): Value {
    Or(Get(meta, "symbol"), Str(DefaultSymbol))
  }

  /** `args.meta?.symbol || 'PLDM'` */
  function SymbolOf(args: Value): Value {
    SymbolIn(Get(args, "meta"))
  }

  // ---------------------------------------------------------------------
  // Holding lookup
  // ---------------------------------------------------------------------

  datatype Holding = Holding(contractId: Value, amount: Number, owner: Value, issuer: Value, meta: Value)

  /**
   * The map callback of `getHoldingContractId`. It reads `event.contractId`
   * and `args.amount` without optional chaining, so an entry without a
   * created event or without create arguments throws.
   */
  function HoldingOf(e: AcsEntry): (r: Result<Holding, Fault>)
    ensures r.Success? <==> Carries(e) && Readable(EventOf(e).createArgument)
    ensures !Carries(e) ==> r == Failure(Thrown(UndefinedRead("contractId")))
    ensures r.Success? ==>
      var args := EventOf(e).createArgument;
      && r.value.contractId == IdValue(EventOf(e).contractId)
      && r.value.amount == ParseFloat(Get(args, "amount"))
      && r.value.owner == Get(args, "owner")
      && r.value.issuer == Get(args, "issuer")
      && r.value.meta == Get(args, "meta")
  {
    if !Carries(e) then Failure(Thrown(UndefinedRead("contractId")))
    else
      var ev := EventOf(e);
      var args := ev.createArgument;
      if !Readable(args) then Failure(Thrown(UndefinedRead("amount")))
      else Success(Holding(IdValue(ev.contractId), ParseFloat(Get(args, "amount")), Get(args, "owner"),
                           Get(args, "issuer"), Get(args, "meta")))
  }

  predicate OwnedBy(h: Holding, owner: Value) {
    StrictEq(h.owner, owner)
  }

  function Owned(hs: seq<Holding>, owner: Value): seq<Holding> {
    Seqs.Filter(hs, h => OwnedBy(h, owner))
  }

  /**
   * `getHoldingContractId(token, owner)`; `acs` is the body of the
   * active-contracts reply, `None` when it is falsy. Every entry is mapped
   * before any is filtered, so one malformed entry fails the lookup even if
   * it belongs to someone else.
   */
  function HoldingsFor(owner: Value, acs: Result<Option<seq<AcsEntry>>, Fault>): (r: Result<seq<Holding>, Fault>)
    ensures acs.Failure? ==> r == Failure(acs.error)
    ensures acs.Success? && (acs.value.None? || |acs.value.value| == 0) ==> r == Failure(Thrown(Text(NoHoldings)))
    ensures acs.Success? && acs.value.Some? && |acs.value.value| > 0 ==>
      var mapped := Seqs.MapAll(acs.value.value, HoldingOf);
      && (mapped.Failure? ==> r == Failure(mapped.error))
      && (mapped.Success? && |Owned(mapped.value, owner)| == 0 ==> r == Failure(Thrown(Text(NoOwnedHoldings))))
      && (mapped.Success? && |Owned(mapped.value, owner)| > 0 ==> r == Success(Owned(mapped.value, owner)))
    ensures r.Success? ==> |r.value| > 0 && forall k :: 0 <= k < |r.value| ==> OwnedBy(r.value[k], owner)
  {
    match acs
    case Failure(f) => Failure(f)
    case Success(data) =>
      if data.None? || |data.value| == 0 then Failure(Thrown(Text(NoHoldings)))
      else
        match Seqs.MapAll(data.value, HoldingOf)
        case Failure(f) => Failure(f)
        case Success(hs) =>
          var mine := Owned(hs, owner);
          if |mine| == 0 then Failure(Thrown(Text(NoOwnedHoldings))) else Success(mine)
  }

  /** The returned holdings are in reply order: the lookup's filter distributes over the reply. */
  lemma {:induction false} OwnedPreservesOrder(a: seq<Holding>, b: seq<Holding>, owner: Value)
    ensures Owned(a + b, owner) == Owned(a, owner) + Owned(b, owner)
  {
    Seqs.FilterAppend(a, b, h => OwnedBy(h, owner));
  }

  // ---------------------------------------------------------------------
  // Direct transfer
  // ---------------------------------------------------------------------

  /** The holding holds at least `need` base units. A NaN on either side never does. */
  predicate Covers(h: Holding, need: Number) {
    AtLeast(h.amount, need)
  }

  /** `holdings.find(h => h.amount >= need)`: first sufficient holding wins. */
  function SelectHolding(hs: seq<Holding>, need: Number): (r: Option<Holding>)
    ensures r.None? <==> forall i :: 0 <= i < |hs| ==> !Covers(hs[i], need)
    ensures r.Some? ==> exists i :: 0 <= i < |hs| && hs[i] == r.value && Covers(hs[i], need)
                                    && forall j :: 0 <= j < i ==> !Covers(hs[j], need)
  {
    match Seqs.Find(hs, h => Covers(h, need))
    case None => None
    case Some(i) => Some(hs[i])
  }

  const SubmitAndWait := "commands/submit-and-wait"

  /** The Transfer exercise on the chosen holding. */
  function TransferSubmission(cfg: Config, h: Holding, receiver: Value, amountWei: Value, sender: Value): (s: Submission)
    ensures |s.commands| == 1 && s.commands[0].ExerciseCommand?
    ensures s.commands[0].templateId == HoldingTemplate(cfg)
    ensures s.commands[0].contractId == h.contractId && s.commands[0].choice == "Transfer"
    ensures s.commands[0].choiceArgument.Keys == {"to", "value", "complianceRulesCid", "complianceProofCid"}
    ensures s.commands[0].choiceArgument["to"] == receiver
    ensures s.commands[0].choiceArgument["value"] == amountWei
    ensures s.commands[0].choiceArgument["complianceRulesCid"] == Null
    ensures s.commands[0].choiceArgument["complianceProofCid"] == Null
    ensures s.actAs == [sender] && s.readAs.None?
  {
    Submission(SubmitAndWait, [sender], None, "transfer-",
      [ExerciseCommand(HoldingTemplate(cfg), h.contractId, "Transfer",
                       map["to" := receiver, "value" := amountWei,
                           "complianceRulesCid" := Null, "complianceProofCid" := Null])])
  }

  /** The body of a submit-and-wait reply. */
  datatype SubmitReply = SubmitReply(updateId: Value, completionOffset: Value, status: Value, events: Option<seq<Event>>)

  datatype NewContract = NewContract(owner: Value, amount: Number, symbol: Value, contractId: Value)

  /** A created contract in display units; it throws when the event has no create arguments. */
  function NewContractOf(c: CreatedEvent): (r: Result<NewContract, Fault>)
    ensures r.Success? <==> Readable(c.createArgument)
    ensures r.Failure? ==> r.error == Thrown(UndefinedRead("owner"))
    ensures r.Success? ==>
      && r.value.owner == Get(c.createArgument, "owner")
      && r.value.amount == Over(ParseFloat(Get(c.createArgument, "amount")), BaseUnitsPerToken)
      && r.value.symbol == SymbolOf(c.createArgument)
      && r.value.contractId == IdValue(c.contractId)
  {
    if !Readable(c.createArgument) then Failure(Thrown(UndefinedRead("owner")))
    else
      var args := c.createArgument;
      Success(NewContract(Get(args, "owner"), Over(ParseFloat(Get(args, "amount")), BaseUnitsPerToken),
                          SymbolOf(args), IdValue(c.contractId)))
  }

  /** `newContracts`: one entry per created event of the reply, in order. */
  function NewContracts(events: Option<seq<Event>>): (r: Result<seq<NewContract>, Fault>)
    ensures var created := CreatedEvents(events.GetOr([]));
      && (r.Success? <==> forall k :: 0 <= k < |created| ==> Readable(created[k].createArgument))
      && (r.Success? ==> |r.value| == |created|)
      && (r.Success? ==> forall k :: 0 <= k < |created| ==> NewContractOf(created[k]) == Success(r.value[k]))
  {
    Seqs.MapAll(CreatedEvents(events.GetOr([])), NewContractOf)
  }

  /**
   * The `value` a transfer sends, read back as a created contract's amount,
   * is the display amount the caller asked for, NaN included: the base-unit
   * text and the division by `1e18` undo each other.
   */
  lemma SentAmountReadsBack(cfg: Config, h: Holding, receiver: Value, amount: Value, sender: Value, c: CreatedEvent)
    requires Readable(c.createArgument)
    requires Get(c.createArgument, "amount") ==
             TransferSubmission(cfg, h, receiver, NumberText(BaseUnits(amount)), sender).commands[0].choiceArgument["value"]
    ensures NewContractOf(c).Success? && NewContractOf(c).value.amount == ToNumber(amount)
  {
  }

  /** The thrown `{success: false, error, status, details}`. */
  datatype TransferError = TransferError(error: Said, status: Option<int>, details: Value)

  /** The `directTransfer` catch block: the ledger's message or the error's own, and the reply's status and body. */
  function Wrap(f: Fault): (r: TransferError)
    ensures r.error == LedgerMessageOr(f)
    ensures f.response.Some? ==> r.status == Some(f.response.value.status) && r.details == f.response.value.data
    ensures f.response.None? ==> r.status.None? && r.details == Undefined
  {
    TransferError(LedgerMessageOr(f), StatusOf(f), DetailsOf(f))
  }

  /** What `directTransfer` throws: the token helper's own error, or the wrapped one. */
  datatype TransferFailure = TokenFailed(fault: Fault) | TransferFailed(err: TransferError)

  datatype TransferReceipt = TransferReceipt(
    updateId: Value,
    offset: Value,
    status: Value,
    from: Value,
    to: Value,
    amount: Value,
    symbol: Value,
    senderBalanceBefore: Number,
    newContracts: seq<NewContract>)

  /** A `directTransfer` call: the holdings query it sent, the submission it sent, and its outcome. */
  datatype TransferRun = TransferRun(query: Option<AcsQuery>, sent: Option<Submission>, outcome: Result<TransferReceipt, TransferFailure>)

  function Receipt(sender: Value, receiver: Value, amount: Value, h: Holding, reply: SubmitReply,
                   created: seq<NewContract>): TransferReceipt {
    TransferReceipt(reply.updateId, reply.completionOffset, Or(reply.status, Str("Completed")),
                    sender, receiver, amount, SymbolIn(h.meta), Over(h.amount, BaseUnitsPerToken), created)
  }

  /** After the holding is chosen: submit the Transfer and project the reply. */
  function SubmitTransfer(cfg: Config, query: AcsQuery, h: Holding, sender: Value, receiver: Value, amount: Value,
                          submit: Result<SubmitReply, Fault>): (run: TransferRun)
    ensures run.query == Some(query)
    ensures run.sent == Some(TransferSubmission(cfg, h, receiver, NumberText(BaseUnits(amount)), sender))
    ensures run.outcome.Failure? ==> run.outcome.error.TransferFailed?
    ensures submit.Failure? ==> run.outcome == Failure(TransferFailed(Wrap(submit.error)))
    ensures run.outcome.Success? <==> submit.Success? && NewContracts(submit.value.events).Success?
    ensures run.outcome.Success? ==>
      && NewContracts(submit.value.events) == Success(run.outcome.value.newContracts)
      && run.outcome.value.from == sender && run.outcome.value.to == receiver
      && run.outcome.value.amount == amount
      && run.outcome.value.senderBalanceBefore == Over(h.amount, BaseUnitsPerToken)
      && run.outcome.value.symbol == SymbolIn(h.meta)
      && run.outcome.value.updateId == submit.value.updateId
      && run.outcome.value.offset == submit.value.completionOffset
      && run.outcome.value.status == Or(submit.value.status, Str("Completed"))
  {
    var sent := TransferSubmission(cfg, h, receiver, NumberText(BaseUnits(amount)), sender);
    match submit
    case Failure(f) => TransferRun(Some(query), Some(sent), Failure(TransferFailed(Wrap(f))))
    case Success(reply) =>
      match NewContracts(reply.events)
      case Failure(f) => TransferRun(Some(query), Some(sent), Failure(TransferFailed(Wrap(f))))
      case Success(created) => TransferRun(Some(query), Some(sent), Success(Receipt(sender, receiver, amount, h, reply, created)))
  }

  /**
   * `directTransfer(sender, receiver, amountPLDM)`. `offsetReply` is the
   * ledger-end reply; `acs` the active-contracts body; `submit` the reply to
   * the Transfer submission.
   */
  function DirectTransfer(cfg: Config, sender: Value, receiver: Value, amount: Value,
                          token: Result<string, Fault>, offsetReply: Result<Value, Fault>,
                          acs: Result<Option<seq<AcsEntry>>, Fault>,
                          submit: Result<SubmitReply, Fault>): (run: TransferRun)
    ensures token.Failure? ==> run == TransferRun(None, None, Failure(TokenFailed(token.error)))
    ensures token.Success? ==> run.query == Some(AcsQuery(sender, HoldingTemplate(cfg), LatestOffset(offsetReply)))
    ensures token.Success? && run.outcome.Failure? ==> run.outcome.error.TransferFailed?
    ensures token.Success? && HoldingsFor(sender, acs).Failure? ==>
      run.sent.None? && run.outcome == Failure(TransferFailed(Wrap(HoldingsFor(sender, acs).error)))
    ensures token.Success? && HoldingsFor(sender, acs).Success? ==>
      var hs := HoldingsFor(sender, acs).value;
      && (run.sent.None? <==> forall i :: 0 <= i < |hs| ==> !Covers(hs[i], BaseUnits(amount)))
      && (run.sent.None? ==> run.outcome == Failure(TransferFailed(Wrap(Thrown(InsufficientBalance(amount))))))
      && (run.sent.Some? ==>
            exists i :: 0 <= i < |hs| && Covers(hs[i], BaseUnits(amount))
                        && (forall j :: 0 <= j < i ==> !Covers(hs[j], BaseUnits(amount)))
                        && run.sent == Some(TransferSubmission(cfg, hs[i], receiver, NumberText(BaseUnits(amount)), sender))
                        && (run.outcome.Success? ==>
                              && run.outcome.value.senderBalanceBefore == Over(hs[i].amount, BaseUnitsPerToken)
                              && run.outcome.value.symbol == SymbolIn(hs[i].meta)))
    ensures run.sent.Some? && submit.Failure? ==> run.outcome == Failure(TransferFailed(Wrap(submit.error)))
    ensures run.outcome.Success? ==>
      && submit.Success?
      && NewContracts(submit.value.events) == Success(run.outcome.value.newContracts)
      && run.outcome.value.from == sender && run.outcome.value.to == receiver
      && run.outcome.value.amount == amount
  {
    match token
    case Failure(f) => TransferRun(None, None, Failure(TokenFailed(f)))
    case Success(_) =>
      var query := AcsQuery(sender, HoldingTemplate(cfg), LatestOffset(offsetReply));
      match HoldingsFor(sender, acs)
      case Failure(f) => TransferRun(Some(query), None, Failure(TransferFailed(Wrap(f))))
      case Success(hs) =>
        var need := BaseUnits(amount);
        match SelectHolding(hs, need)
        case None => TransferRun(Some(query), None, Failure(TransferFailed(Wrap(Thrown(InsufficientBalance(amount))))))
        case Some(h) => SubmitTransfer(cfg, query, h, sender, receiver, amount, submit)
  }

  // ---------------------------------------------------------------------
  // Transfer history
  // ---------------------------------------------------------------------

  /** The events-range request: every holding event visible to `party` up to `endInclusive`. */
  datatype EventsRange = EventsRange(party: Value, templateId: string, startExclusive: Value, endInclusive: Value)

  datatype HistoryEntry = HistoryEntry(kind: string, owner: Value, amount: Number, symbol: Value, timestamp: Value)

  /** One created event of the history, tagged 'received'. */
  function HistoryEntryOf(c: CreatedEvent): (r: Result<HistoryEntry, Fault>)
    ensures r.Success? <==> Readable(c.createArgument)
    ensures r.Success? ==>
      && r.value.kind == "received"
      && r.value.owner == Get(c.createArgument, "owner")
      && r.value.amount == Over(ParseFloat(Get(c.createArgument, "amount")), BaseUnitsPerToken)
      && r.value.symbol == SymbolOf(c.createArgument)
      && r.value.timestamp == c.createdAt
  {
    if !Readable(c.createArgument) then Failure(Thrown(UndefinedRead("owner")))
    else
      var args := c.createArgument;
      Success(HistoryEntry("received", Get(args, "owner"), Over(ParseFloat(Get(args, "amount")), BaseUnitsPerToken),
                           SymbolOf(args), c.createdAt))
  }

  datatype History = History(partyId: Value, transfers: seq<HistoryEntry>)

  /** What `getTransferHistory` throws: the token helper's error, or `{success: false, error}`. */
  datatype HistoryFailure = HistoryTokenFailed(fault: Fault) | HistoryFailed(error: Said)

  datatype HistoryRun = HistoryRun(range: Option<EventsRange>, outcome: Result<History, HistoryFailure>)

  /**
   * `getTransferHistory(partyId)`: every created event of the range, in
   * order, as a 'received' entry; other events are dropped.
   */
  function TransferHistory(cfg: Config, partyId: Value, token: Result<string, Fault>, offsetReply: Result<Value, Fault>,
                           events: Result<Option<seq<Event>>, Fault>): (run: HistoryRun)
    ensures token.Failure? ==> run == HistoryRun(None, Failure(HistoryTokenFailed(token.error)))
    ensures token.Success? ==>
      run.range == Some(EventsRange(partyId, HoldingTemplate(cfg), Numeral(0.0), LatestOffset(offsetReply)))
    ensures token.Success? && events.Failure? ==> run.outcome == Failure(HistoryFailed(LedgerMessageOr(events.error)))
    ensures run.outcome.Success? ==>
      && events.Success?
      && var created := CreatedEvents(events.value.GetOr([]));
         && run.outcome.value.partyId == partyId
         && |run.outcome.value.transfers| == |created|
         && forall k :: 0 <= k < |created| ==> HistoryEntryOf(created[k]) == Success(run.outcome.value.transfers[k])
    ensures token.Success? && events.Success? ==>
      (run.outcome.Success? <==>
         forall c :: c in CreatedEvents(events.value.GetOr([])) ==> Readable(c.createArgument))
  {
    match token
    case Failure(f) => HistoryRun(None, Failure(HistoryTokenFailed(f)))
    case Success(_) =>
      var range := Some(EventsRange(partyId, HoldingTemplate(cfg), Numeral(0.0), LatestOffset(offsetReply)));
      match events
      case Failure(f) => HistoryRun(range, Failure(HistoryFailed(LedgerMessageOr(f))))
      case Success(evs) =>
        match Seqs.MapAll(CreatedEvents(evs.GetOr([])), HistoryEntryOf)
        case Failure(f) => HistoryRun(range, Failure(HistoryFailed(LedgerMessageOr(f))))
        case Success(entries) => HistoryRun(range, Success(History(partyId, entries)))
  }
}

=== FILE: wrappers.dfy ===
/** Option and Result, the failure-carrying outcomes used throughout the model. */
module Wrappers {

  /** A value that may be absent (JavaScript's `undefined` for a missing field). */
  datatype Option<+T> = None | Some(value: T) {

    function GetOr(default: T): T {
      match this
      case Some(v) => v
      case None => default
    }
  }

  /** The outcome of an operation that may throw: `Failure` carries what was thrown. */
  datatype Result<+R, +E> = Success(value: R) | Failure(error: E)
}
